=== FILE: README.md ===
# Skill workbench core, modelled in Dafny

The workbench (`App.tsx`) turns generated text into a draft "skill package":

- **Parsing the text.** The text is cut into file blocks, each introduced by a
  `[FILE: path]` marker. Every block becomes a `SkillFile` record: the trimmed
  path, its last path segment as the name, the body with its code fences
  stripped, and a language picked from the file suffix. A `name:` line in a
  `SKILL.md` instruction file names the package.
- **Downloading.** The draft can be downloaded as a zip folder or as a
  plain-text manifest labelled as gzip.
- **Saving.** The draft can be saved to the library as an `AgentSkill` record
  whose description comes from the instruction file.
- **Editing the session.** A file of the draft can be selected. A library
  entry can be reopened. A cookbook template can scaffold a one-file draft.

The project is written in the source's own form:

- **Parsing, download contents and the saved record** are pure computations in
  the source, so they are datatypes, functions and lemmas here. These live in
  the modules `Text`, `Scanner`, `Parser`, `Bundle`, `Library` and `Cookbook`.
- **The global regular expression of App.tsx:33** is written out as an
  explicit scanner (`Scanner`). It settles the greedy `\s*` and the lazy
  `(.+?)` the way the backtracking engine does. `Scanner.ScanUnique` proves
  that the text has exactly one segmentation into matches, stated without
  `exec`.
- **The component state** (App.tsx:9-25) is the class `AppState.App`. It has
  one field per `useState` hook. Each handler is a method that updates the
  fields in place, making exactly the updates the handler's code makes.
- **The name fallback of `parseGeneratedContent`** is the `draftName` that
  the calling closure captured (App.tsx:35). The chat panel (App.tsx:512)
  awaits the response and then calls the closure of the render in which Send
  was pressed. So `AppState.App.ParseGeneratedContent` takes that captured
  name as a parameter, and `Session.AfterParseFrom` describes the result.
  The cookbook buttons call the closure of the current render, which
  `Session.AfterParse` describes.
- **The `exec` loop of `parseGeneratedContent`** is the method
  `AppState.CollectBlocks`, with loop invariants.
- **The `Session` module** describes the parse, select, open, save and
  download handlers as functions from the state before to the state after.
  Each of these methods is proved to produce exactly that state. The four
  download-dialog handlers (`OpenDownloadModal`, `CloseDownloadModal`,
  `SetDownloadName`, `SetDownloadFormat`) and the view switch (`SetView`)
  change one field each; their methods state the new state directly in their
  `ensures`.
- **The editor invariant `Session.ViewSafe`.** In the workbench view, the
  editor pane reads `draftFiles[activeFileIndex]` whenever the draft is not
  empty (App.tsx:182, 215-222), so the index must then be in range. The
  invariant is deliberately stronger: it asks for this in every view, because
  any view can switch to the workbench without touching the index. Every
  handler keeps this invariant except "OPEN SOURCE" (App.tsx:333). That
  handler keeps it only when the old index fits the opened entry's files;
  see "## Findings".

`saveToLibrary` has no guard against an empty draft: only the disabled button
at App.tsx:173-174 keeps it from running then. So `AppState.App.SaveToLibrary`
has no precondition on the draft.

## Model

| member | source | states |
|---|---|---|
| Text.Trim | App.tsx:38 | `String.prototype.trim`: the result is the input with its leading whitespace run and its trailing whitespace cut off, and neither end of the result is whitespace |
| Text.Lower | App.tsx:43 | `toLowerCase`, character by character and keeping the length: ASCII capitals and the Kelvin sign are lowered, every other character is kept (see its line under "## Left out") |
| Text.KeyCapture | App.tsx:44 | the first capture of `/key\s*(.*)/`: absent exactly when the key does not occur. Otherwise it is the text that follows the leftmost occurrence of the key and the whole whitespace run after it (newlines included), up to the end of that line |
| Text.CapturedAtUnique | App.tsx:44 | the description of the capture admits one text only: the match position, the whitespace run and the line end are all forced |
| Text.KeyCaptureIs | App.tsx:44 | any text that fits the description of the capture is what `KeyCapture` returns |
| Scanner.CloseBracket | App.tsx:33 | the lazy `(.+?)\]` stops at the first `]` on the line: the result is that `]`, or there is none before the line end |
| Scanner.MarkerAt | App.tsx:33 | a marker found at `p` is a fit of `\[FILE:\s*(.+?)\]` (tag, whitespace, capture on one line, `]`) with no `]` after the capture's first character |
| Scanner.MarkerAtIsFirstFit | App.tsx:33 | whenever any capture fits at `p`, a marker is found, and it is the one the backtracking order prefers: the latest capture start, then the shortest capture |
| Scanner.NextTag | App.tsx:33 | the lookahead of the pattern: the first literal `[FILE:` at or after `i`, or the end of the text |
| Scanner.MatchAt | App.tsx:33 | a match at `p` starts at `p`, and its capture and body lie in order inside the text |
| Scanner.MatchBody | App.tsx:33 | a match's capture is the preferred marker; whitespace is skipped after `]`; the body holds no `[FILE:` and stops at the next one or at the end |
| Scanner.CaptureShape | App.tsx:33 | a match's capture lies on one line and has no `]` after its first character |
| Scanner.Exec | App.tsx:37 | `exec` from `lastIndex`: a result is a match at a position at or after `lastIndex` |
| Scanner.ExecLeftmost | App.tsx:37 | `exec` returns the leftmost match: no position between `lastIndex` and the result starts one, and nothing starts one when it fails |
| Scanner.Scan | App.tsx:37-49 | every match the loop visits lies inside the text |
| Scanner.ScanIsScan | App.tsx:37-49 | the loop's matches form a segmentation of the text: each is the leftmost match after the previous body |
| Scanner.SegmentationUnique | App.tsx:33-49 | two segmentations of the same text from the same position are equal |
| Scanner.ScanUnique | App.tsx:33-49 | every segmentation of the text is the one the `exec` loop produces |
| Scanner.NoTagNoMatch | App.tsx:33-37 | text without the literal `[FILE:` yields no match |
| Parser.LastSegment | App.tsx:40 | `split('/').pop()`: a suffix of the path without `/`, either the whole path or preceded by `/` |
| Parser.BaseName | App.tsx:40 | the popped segment, or the path when that is empty: the file name after the last `/`, or the whole path when there is no `/` or it ends in `/` |
| Parser.LanguageOf | App.tsx:41 | `python` exactly for `.py`, `json` exactly for `.json` but not `.py`, and `markdown` exactly otherwise |
| Parser.OpenFenceLength | App.tsx:39 | a line it cuts is an opening fence line: three backticks at the start, then ASCII letters in either case, then a newline |
| Parser.OpenFenceRecognised | App.tsx:39 | every opening fence line is cut, whatever letters tag it, so nothing is cut exactly when the body does not open with a fence line |
| Parser.StripFences | App.tsx:39 | the content is the body minus its opening fence line, if any. Then a closing newline-and-fence at the very end is cut exactly when present, and nothing else is cut |
| Parser.OpenFenceOnly | App.tsx:39 | a body with an opening fence line but no closing fence loses only the fence line |
| Parser.CloseFenceOnly | App.tsx:39 | a body with a closing fence but no opening one loses only the closing fence |
| Parser.FenceRoundTrip | App.tsx:39 | code wrapped in a fenced block with a letter tag comes back exactly |
| Parser.NoFenceUnchanged | App.tsx:39 | a body without fences is kept unchanged |
| Parser.MakeFile | App.tsx:38-41 | the record of one block; its meaning is stated by `Parser.ParseBlocks` (path, name, language and content) and `Parser.ParsedPathShape` (the path's shape, ending with the name) |
| Parser.Parse | App.tsx:32-49 | the `files` array; its meaning is stated by `Parser.ParseBlocks`, `Parser.ParseEmptyIff` and `Scanner.ScanUnique` |
| Parser.Files | App.tsx:37-48 | one record per match |
| Parser.FilesAt | App.tsx:37-48 | record `k` is built from match `k` |
| Parser.ParseStep | App.tsx:37-49 | one loop turn: the match found adds its record and its name, and the loop resumes after its body |
| Parser.ParseBlocks | App.tsx:33-48 | record `k` comes from the `k`-th match of the unique segmentation: the path is the trimmed capture, the name its last segment, the language the one its suffix selects, the content the trimmed, de-fenced body, and that body runs to the next `[FILE:` or the end |
| Parser.ParseEmptyIff | App.tsx:37-51 | no record is produced exactly when no position of the text starts a well-formed marker |
| Parser.ParsedPathShape | App.tsx:38-40 | every record's path is trimmed, lies on one line, has no `]` after its first character, and ends with the record's name |
| Parser.NameFrom | App.tsx:43-45 | a block names the package only if it is an instruction file with a `name:` line; the name is that capture, trimmed; every instruction file containing `name:` names it |
| Parser.IsInstructionPath | App.tsx:43 | the instruction-file test; `Parser.InstructionPathAnywhere` states it |
| Parser.InstructionPathAnywhere | App.tsx:43 | the test ignores case and position: a path with `SKILL.md` or `skill.md` anywhere in it qualifies |
| Parser.Resolve | App.tsx:35-46 | the final `foundName`; its meaning is stated by `Parser.ResolveLastWins` and `Parser.ResolveFallback` |
| Parser.ResolveLastWins | App.tsx:35-46 | the last block that names the package decides the name, whatever came before |
| Parser.ResolveFallback | App.tsx:35-46 | without a naming block the current draft name stays |
| Parser.ResolveIgnoresFallback | App.tsx:35-46 | once any block names the package, the starting name does not matter |
| Parser.ResolveIdempotent | App.tsx:35-46 | resolving again from the resolved name gives the same name |
| Bundle.OrElse | App.tsx:65 | JavaScript's logical or on strings: the fallback is taken exactly when the string is empty (and the fallback is not) |
| Bundle.DownloadFileName | App.tsx:75 | the file name ends in the format's extension and begins with the package name, or with `skill` when the name is empty |
| Bundle.DownloadFileNameBase | App.tsx:86 | cutting the extension off the file name gives back the base name |
| Bundle.Section | App.tsx:81 | a manifest section is the `--- FILE: path ---` header line followed directly by the file content, with nothing between them |
| Bundle.ZipEntries | App.tsx:67-69 | one zip entry per draft file, in draft order, with that file's path and content |
| Bundle.Join | App.tsx:81 | `Array.prototype.join`; its meaning is stated by `Bundle.JoinAt` |
| Bundle.Manifest | App.tsx:81 | the tar.gz payload; its meaning is stated by `Bundle.ManifestSection` and `Bundle.SingleFileManifest` |
| Bundle.JoinAt | App.tsx:81 | `join`: every part sits at its offset, followed by the separator unless it is the last part; the offsets grow with the index |
| Bundle.ManifestSection | App.tsx:81 | draft file `k`'s header and section appear in the manifest at the `k`-th offset, in draft order |
| Bundle.SingleFileManifest | App.tsx:81 | a one-file manifest is that file's section alone, with no separator |
| Bundle.BundleOf | App.tsx:60-89 | nothing for an empty draft. A zip holds the named root folder (never empty) and one entry per draft file with its path and content, in order. A tar.gz is the manifest under the gzip type. Either way the file name is the download file name |
| Library.InstructionsOf | App.tsx:94 | the content of the first instruction file, or nothing; stated by `Library.SavedFromFirstInstruction` and `Library.SavedWithoutInstruction` |
| Library.NewSkill | App.tsx:95-107 | the record literal; its meaning is stated by `Library.SavedFromFirstInstruction` and `Library.SavedWithoutInstruction` |
| Library.FirstInstruction | App.tsx:94 | `find`: the index of the first file whose lower-cased path contains `skill.md`, with none before it; absent when no file qualifies |
| Library.DescriptionOf | App.tsx:98 | the description is never empty and lies on one line. It is the default exactly when `description:` is missing or captures nothing (or the default text); otherwise it is the capture, untrimmed at the end |
| Library.SavedFromFirstInstruction | App.tsx:94-107 | the saved instructions and description come from the first instruction file even when a later one exists; the record copies the draft and its name, with version `1.0.0` and empty triggers and capabilities |
| Library.SavedWithoutInstruction | App.tsx:94-104 | without an instruction file the record has empty instructions and the default description |
| Session.ViewSafe | App.tsx:215-222 | the editor pane's read of `draftFiles[activeFileIndex]` is defined: the draft is empty or the index is in range. Asked in every view, not only in the workbench view of App.tsx:182 |
| Session.Initial | App.tsx:9-25 | the first state has an empty draft and the saved library, and is safe for the editor |
| Session.Commit | App.tsx:51-57 | no block leaves the state unchanged; otherwise the draft, the name and the download name are replaced, the first file is selected and the workbench shown; the library, the dialog and the format are kept |
| Session.AfterParseFrom | App.tsx:31-58 | the parse by a closure that captured a draft name, committed: unchanged when no block parses; otherwise the parsed records, the name resolved from the captured one in the draft and in the download dialog, index 0, the workbench view, safe for the editor; the library, dialog flag and format are always kept |
| Session.CapturedNameStands | App.tsx:35 | a response with blocks but no naming block takes the captured name, in the draft and the download dialog, whatever the current draft name is |
| Session.CapturedNameIgnored | App.tsx:35-46 | a response with a naming block gives the same state whatever name was captured |
| Session.AfterParse | App.tsx:31-58 | the parse from the current render, committed: unchanged when no block parses; otherwise the parsed records, with the resolved name in the draft and in the download dialog, index 0, the workbench view, and safe for the editor |
| Session.ParseIdempotent | App.tsx:31-58 | feeding the same text twice leaves the state it left after the first time |
| Session.AfterSelect | App.tsx:190-193 | selecting an existing file changes only the index and keeps the editor safe |
| Session.AfterOpenAsWritten | App.tsx:333 | as written: the entry's files and name replace the draft and the workbench is shown; every other field, the index and the download name included, is kept |
| Session.OpenAsWrittenSafeIff | App.tsx:333 | as written, the editor stays safe exactly when the entry has no files or the old index fits its files |
| Session.OpenAsWrittenBreaksEditor | App.tsx:215-222 | from a safe state (two files, the second one selected), opening a one-file entry leaves an index past the end of the draft |
| Session.AfterOpen | App.tsx:333 | the corrected open: the entry's files and name, index 0, the workbench shown, every other field kept, and always safe for the editor |
| Session.AfterSave | App.tsx:93-110 | the new record goes in front, the earlier records follow unchanged and in order, the library view is shown, every other field (the draft included) is kept, and safety is preserved |
| Session.SaveKeepsRecords | App.tsx:108 | every earlier record is still in the library, one place further on |
| Session.AfterDownload | App.tsx:60-91 | the draft, name and library are never changed; the dialog is closed unless the draft is empty |
| Session.DownloadOf | App.tsx:61 | nothing is handed to the browser exactly when the draft is empty |
| Cookbook.ReplaceSpaceRuns | App.tsx:281 | `.replace(/\s+/g, '-')`: the result holds no whitespace, only `-` or characters of the input, is empty exactly when the input is, and is no longer than the input |
| Cookbook.SpaceRunDash | App.tsx:281 | a whole non-empty run of whitespace becomes a single `-` |
| Cookbook.NonSpaceKept | App.tsx:281 | a character other than whitespace is kept |
| Cookbook.ReplaceSplit | App.tsx:281 | cut where no whitespace run is split, the two halves are replaced independently; with the two lemmas above, each maximal run becomes one `-` and every other character keeps its place and order |
| Cookbook.Slug | App.tsx:281 | the package name a card asks for; stated by `Cookbook.TemplateParse` and `Cookbook.SlugNoBracket` |
| Cookbook.TemplateText | App.tsx:281 | the text the button passes to the parser; `Cookbook.TemplateParse` states what it parses to |
| Cookbook.NoSpaceUnchanged | App.tsx:281 | a title without whitespace is kept unchanged |
| Cookbook.SlugNoBracket | App.tsx:281 | a title without `[` gives a slug without `[` |
| Cookbook.NameLine | App.tsx:44 | for text that starts with `name: v` followed by `\n`, where `v` is non-empty and holds no whitespace, the `name:` capture is exactly `v` |
| Cookbook.SingleBlockParse | App.tsx:33-48 | text made of the `[FILE: SKILL.md]` header and a non-empty, trimmed, unfenced body without `[FILE:` parses to a single `SKILL.md` markdown record with that body |
| Cookbook.TemplateParse | App.tsx:281 | a template whose title is non-empty and whose title and description have no `[` parses to a single `SKILL.md` record, and the package name becomes the slug of the title |
| AppState.CollectBlocks | App.tsx:33-49 | the `exec` loop collects exactly the parsed records, in order, and the name resolved from the captured draft name |
| AppState.App.constructor | App.tsx:9-25 | the component starts in the initial state with the saved library |
| AppState.App.ParseGeneratedContent | App.tsx:31-58 | the new state is the committed parse with the fallback name the calling closure captured, and the editor stays safe |
| AppState.App.ApplyBlocks | App.tsx:51-57 | the state updates after the loop are exactly the commit |
| AppState.App.SelectFile | App.tsx:193 | the new state is the selection |
| AppState.App.OpenLibraryEntry | App.tsx:333 | the new state is the open as written: the entry's files and name, the workbench shown, and the index kept. The editor stays safe exactly when the entry has no files or the old index fits them |
| AppState.App.SaveToLibrary | App.tsx:93-110 | the new state is the save, with the random id and the clock passed in |
| AppState.App.HandleBundleDownload | App.tsx:60-91 | the artifact is what the state determines (absent for an empty draft), and the new state is the download's |
| AppState.App.SetView | App.tsx:126-127 | the overview buttons and the sidebar entries change only the view, and the editor stays safe in every view |
| AppState.App.OpenDownloadModal | App.tsx:165 | only the dialog flag changes, to open |
| AppState.App.CloseDownloadModal | App.tsx:462 | only the dialog flag changes, to closed |
| AppState.App.SetDownloadName | App.tsx:473 | only the download name changes |
| AppState.App.SetDownloadFormat | App.tsx:483-491 | only the download format changes |
| AppState.App.ScaffoldTemplate | App.tsx:279-282 | the template text is parsed and committed; for a template without `[` the draft becomes the single `SKILL.md` file and the package and download names become the slug of the title |

## Left out

- The archive encoding is not modelled: JSZip's `generateAsync`, the `Blob`, the object URL and the anchor click (App.tsx:71-77, 82-88). The model stops at what would be written: the root folder, the entries, the manifest text, the MIME type and the file name.
- Persistence to `localStorage` (App.tsx:10-13, 27-29) is not modelled. The saved library is a parameter of the constructor, and parsing of corrupt stored JSON is left out.
- `Math.random` and `Date.now` (App.tsx:96, 106) become the parameters `id` and `updatedAt` of the save.
- The generation service and the chat component are not part of this model; the chat panel enters it only as the caller of `AppState.App.ParseGeneratedContent` with the name captured at send time. Its `includes('[FILE:')` guard is not modelled, since text without `[FILE:` parses to no block and changes nothing (`Scanner.NoTagNoMatch`). The sidebar (components/Sidebar.tsx) is modelled only by the `AppState.App.SetView` it calls. Neither is rendering beyond the one fact the editor pane needs (`ViewSafe`).
- `handleBundleDownload` is `async`, and the dialog closes only after the archive is built. The model makes the whole handler one atomic step.
- Text.Lower: lower-cases ASCII capitals and the Kelvin sign only. These are all the characters that can turn a path into one containing `skill.md`, so the instruction-file test is exact. `Cookbook.Slug` also uses it, and there `toLowerCase` changes other capitals too (`É` to `é`). So the slug differs from the source for card titles with non-ASCII capitals; the four cards' titles are ASCII.
- The four cookbook cards' literal titles and descriptions (App.tsx:246-270) are not transcribed. `AppState.App.ScaffoldTemplate` takes the card as a parameter.
- Cookbook.TemplateParse: covers only cards with a non-empty title and whose title and description contain no `[`. With a `[`, a title could itself contain `[FILE:` and start a second block. With an empty title the slug is empty, and `name:\s*(.*)` then skips the line break and captures the `description:` line instead. For such cards the scaffold is still modelled exactly, through `Session.AfterParse`.
- AppState.App.SelectFile: requires an index inside the draft. The source offers a button only for existing files (App.tsx:190-193).
- AppState.App.OpenLibraryEntry: requires an index inside the library. The source offers a button only for existing entries.
- Every method of `AppState.App` requires `Valid()` (the editor index in range). With the index out of range, the render at App.tsx:215 throws, so no handler runs after that. "OPEN SOURCE" can reach such a state, and the model stops there.
- The disabled state of the download and save buttons for an empty draft (App.tsx:166, 174) is not a precondition. The handlers are modelled for every state, as their code allows.

## Findings

| source | as written | input that shows it | evidently intended | confidence | as-written member | corrected member |
|---|---|---|---|---|---|---|
| App.tsx:333 | "OPEN SOURCE" replaces the draft with the entry's files but keeps `activeFileIndex`. The editor pane then reads `draftFiles[activeFileIndex].path` (App.tsx:215). | A draft of two files with the second selected, then opening a library entry with one file: index 1 on a one-file draft, so `.path` of `undefined` is read. | Reset the selection to the first file, as `parseGeneratedContent` does (App.tsx:55). | not executed | Session.OpenAsWrittenBreaksEditor | Session.AfterOpen |

=== FILE: app.dfy ===
/**
 * The `App` component's state (App.tsx:9-25) and its handlers, run step by
 * step as the component runs them. Each handler is proved to leave the state
 * that the matching function of the Session module describes. Every handler
 * but "OPEN SOURCE" keeps the editor pane's index in range; that one keeps it
 * only when the old index fits the opened entry. The handlers require the index
 * in range, since with it out of range the render throws and no handler runs.
 */
module AppState {
  import opened Common
  import opened Text
  import opened Types
  import opened Scanner
  import opened Parser
  import opened Bundle
  import opened Library
  import opened Session
  import opened Cookbook

  /**
   * The `exec` loop of `parseGeneratedContent` (App.tsx:33-49): one record per
   * match, in order, and the `name:` of the last instruction file that has one,
   * starting from the draft name the caller captured.
   */
  method CollectBlocks(content: string, current: string) returns (files: seq<SkillFile>, foundName: string)
    ensures files == Parse(content)
    ensures foundName == Resolve(files, current)
  {
    files := [];
    foundName := current;
    var lastIndex: nat := 0;
    var found := Exec(content, lastIndex);
    while found.Some?
      invariant lastIndex <= |content|
      invariant found == Exec(content, lastIndex)
      invariant files + Files(content, Scan(content, lastIndex)) == Parse(content)
      invariant Resolve(Files(content, Scan(content, lastIndex)), foundName) == Resolve(Parse(content), current)
      decreases |content| - lastIndex
    {
      var m := found.value;
      // the trimmed path, the de-fenced body, the base name and the language
      var file := FileOf(content, m);
      ghost var before := foundName;
      ParseStep(content, lastIndex, m, files, foundName);
      if IsInstructionPath(file.path) {
        var nameMatch := KeyCapture(file.content, "name:");
        if nameMatch.Some? {
          foundName := Trim(nameMatch.value);
        }
      }
      assert foundName == NameFrom(file).GetOr(before);
      files := files + [file];
      lastIndex := m.bodyEnd;
      found := Exec(content, lastIndex);
    }
    assert Scan(content, lastIndex) == [];
  }

  class App {
    var currentView: View
    var skills: seq<AgentSkill>
    var activeFileIndex: nat
    var draftFiles: seq<SkillFile>
    var draftName: string
    var isDownloadModalOpen: bool
    var downloadConfig: DownloadConfig

    function State(): SessionState
      reads this
    {
      SessionState(currentView, skills, activeFileIndex, draftFiles, draftName, isDownloadModalOpen, downloadConfig)
    }

    ghost predicate Valid()
      reads this
    {
      ViewSafe(State())
    }

    /** The component's first render, with the library loaded from storage passed in. */
    constructor(saved: seq<AgentSkill>)
      ensures Valid() && State() == Initial(saved)
    {
      currentView := Overview;
      skills := saved;
      activeFileIndex := 0;
      draftFiles := [];
      draftName := UntitledProject;
      isDownloadModalOpen := false;
      downloadConfig := DownloadConfig([], Zip);
    }

    /**
     * `parseGeneratedContent` (App.tsx:31-58): nothing changes when the text holds
     * no block; otherwise the blocks replace the draft, the resolved name goes to
     * the draft and the download dialog, and the first file is shown. `captured`
     * is the `draftName` of the render whose closure runs: the current one for a
     * cookbook button, the one in which Send was pressed for the chat panel.
     */
    method ParseGeneratedContent(content: string, captured: string)
      requires Valid()
      modifies this
      ensures Valid() && State() == AfterParseFrom(old(State()), content, captured)
    {
      var files, foundName := CollectBlocks(content, captured);
      ApplyBlocks(files, foundName);
    }

    /** The `if (files.length > 0)` block of App.tsx:51-56. */
    method ApplyBlocks(files: seq<SkillFile>, foundName: string)
      requires Valid()
      modifies this
      ensures Valid() && State() == Commit(old(State()), files, foundName)
    {
      if files != [] {
        draftFiles := files;
        draftName := foundName;
        downloadConfig := downloadConfig.(name := foundName);
        activeFileIndex := 0;
        currentView := Workbench;
      }
    }

    /** A project-tree button (App.tsx:193). */
    method SelectFile(i: nat)
      requires Valid() && i < |draftFiles|
      modifies this
      ensures Valid() && State() == AfterSelect(old(State()), i)
    {
      activeFileIndex := i;
    }

    /**
     * "OPEN SOURCE" on library entry `k` (App.tsx:333): the entry's files and
     * name replace the draft and the workbench is shown, but the selected index
     * is kept, so the editor pane stays readable only when that index fits the
     * entry's files (`Session.OpenAsWrittenSafeIff`).
     */
    method OpenLibraryEntry(k: nat)
      requires Valid() && k < |skills|
      modifies this
      ensures State() == AfterOpenAsWritten(old(State()), k)
      ensures Valid() <==> old(skills)[k].files == [] || old(activeFileIndex) < |old(skills)[k].files|
    {
      var skill := skills[k];
      draftFiles := skill.files;
      draftName := skill.name;
      currentView := Workbench;
      OpenAsWrittenSafeIff(old(State()), k);
    }

    /** `saveToLibrary` (App.tsx:93-110), with the random id and the clock passed in. */
    method SaveToLibrary(id: string, updatedAt: int)
      requires Valid()
      modifies this
      ensures Valid() && State() == AfterSave(old(State()), id, updatedAt)
    {
      var newSkill := NewSkill(draftFiles, draftName, id, updatedAt);
      skills := [newSkill] + skills;
      currentView := Directory;
    }

    /**
     * `handleBundleDownload` (App.tsx:60-91): returns what is handed to the
     * browser, or nothing for an empty draft, and closes the dialog.
     */
    method HandleBundleDownload() returns (artifact: Option<Artifact>)
      requires Valid()
      modifies this
      ensures artifact == DownloadOf(old(State()))
      ensures Valid() && State() == AfterDownload(old(State()))
    {
      if |draftFiles| == 0 {
        return None;
      }
      var fileName := DownloadFileName(downloadConfig);
      if downloadConfig.format == Zip {
        var root := OrElse(downloadConfig.name, DefaultRoot);
        var entries: seq<ZipEntry> := [];
        for i := 0 to |draftFiles|
          invariant |entries| == i
          invariant forall k :: 0 <= k < i ==> entries[k] == EntryOf(draftFiles[k])
        {
          entries := entries + [EntryOf(draftFiles[i])];
        }
        assert entries == ZipEntries(draftFiles);
        artifact := Some(ZipArchive(root, entries, fileName));
      } else {
        artifact := Some(TextArchive(Manifest(draftFiles), GzipType, fileName));
      }
      isDownloadModalOpen := false;
    }

    /**
     * The overview's "Start Scaffolding" and "Explore Patterns" buttons
     * (App.tsx:126-127) and the sidebar's entries (App.tsx:455): only the view
     * changes, and the editor's index stays in range in every view.
     */
    method SetView(v: View)
      requires Valid()
      modifies this
      ensures Valid() && State() == old(State()).(view := v)
    {
      currentView := v;
    }

    /** "Download Bundle" (App.tsx:165). */
    method OpenDownloadModal()
      requires Valid()
      modifies this
      ensures Valid() && State() == old(State()).(modalOpen := true)
    {
      isDownloadModalOpen := true;
    }

    /** The backdrop of the dialog (App.tsx:462). */
    method CloseDownloadModal()
      requires Valid()
      modifies this
      ensures Valid() && State() == old(State()).(modalOpen := false)
    {
      isDownloadModalOpen := false;
    }

    /** The name field of the dialog (App.tsx:473). */
    method SetDownloadName(name: string)
      requires Valid()
      modifies this
      ensures Valid() && State() == old(State()).(download := old(downloadConfig).(name := name))
    {
      downloadConfig := downloadConfig.(name := name);
    }

    /** The format buttons of the dialog (App.tsx:483, 491). */
    method SetDownloadFormat(format: Format)
      requires Valid()
      modifies this
      ensures Valid() && State() == old(State()).(download := old(downloadConfig).(format := format))
    {
      downloadConfig := downloadConfig.(format := format);
    }

    /**
     * "Scaffold Architectural Template" (App.tsx:279-282): the template text
     * goes through the parser; for a template without `[` the draft becomes the
     * single `SKILL.md` file and the package takes the slug of the title.
     */
    method ScaffoldTemplate(t: Template)
      requires Valid()
      modifies this
      ensures Valid() && State() == AfterParse(old(State()), TemplateText(t))
      ensures t.title != [] && '[' !in t.title && '[' !in t.desc ==>
        && draftFiles == [SkillFile("SKILL.md", "SKILL.md", TemplateBody(t), "markdown")]
        && draftName == Slug(t.title) && downloadConfig.name == Slug(t.title)
        && activeFileIndex == 0 && currentView == Workbench
    {
      ParseGeneratedContent(TemplateText(t), draftName);
      if t.title != [] && '[' !in t.title && '[' !in t.desc {
        TemplateParse(t, old(draftName));
      }
    }
  }
}

=== FILE: bundle.dfy ===
/**
 * What `handleBundleDownload` (App.tsx:60-91) hands to the browser: for the
 * zip format, the root folder name, one entry per draft file and the file name;
 * for the "tar.gz" format, a plain-text manifest labelled as gzip and its file
 * name. The archive encoding itself and the download through an anchor are
 * outside the model.
 */
module Bundle {
  import opened Common
  import opened Text
  import opened Types

  datatype Format = Zip | TarGz

  /** The download dialog's settings (`downloadConfig`, App.tsx:22-25). */
  datatype DownloadConfig = DownloadConfig(name: string, format: Format)

  datatype ZipEntry = ZipEntry(path: string, content: string)

  datatype Artifact =
    | ZipArchive(root: string, entries: seq<ZipEntry>, fileName: string)
    | TextArchive(text: string, mimeType: string, fileName: string)

  const DefaultRoot: string := "skill-package"
  const DefaultBase: string := "skill"
  const GzipType: string := "application/x-gzip"
  const SectionSeparator: string := "\n\n"

  /** JavaScript's `s || fallback` on strings: only the empty string is falsy. */
  function OrElse(s: string, fallback: string): (r: string)
    ensures r == s || r == fallback
    ensures r == s <==> s != [] || fallback == []
  {
    if s == [] then fallback else s
  }

  function Extension(format: Format): string {
    match format
    case Zip => ".zip"
    case TarGz => ".tar.gz"
  }

  /** `${downloadConfig.name || 'skill'}.zip` or `.tar.gz`. */
  function DownloadFileName(config: DownloadConfig): (fileName: string)
    ensures EndsWith(fileName, Extension(config.format))
    ensures |fileName| > |Extension(config.format)|
    ensures config.name != [] ==> StartsWith(fileName, config.name)
    ensures config.name == [] ==> StartsWith(fileName, DefaultBase)
  {
    var base := OrElse(config.name, DefaultBase);
    var fileName := base + Extension(config.format);
    assert fileName[..|base|] == base;
    assert fileName[|fileName| - |Extension(config.format)|..] == Extension(config.format);
    fileName
  }

  /** The base name comes back by cutting the extension off the file name. */
  lemma DownloadFileNameBase(config: DownloadConfig)
    ensures var fileName := DownloadFileName(config);
      fileName[..|fileName| - |Extension(config.format)|] == OrElse(config.name, DefaultBase)
  {
    var base := OrElse(config.name, DefaultBase);
    assert (base + Extension(config.format))[..|base|] == base;
  }

  function EntryOf(f: SkillFile): ZipEntry {
    ZipEntry(f.path, f.content)
  }

  /** `root.file(file.path, file.content)` for each draft file, in draft order. */
  function ZipEntries(files: seq<SkillFile>): (entries: seq<ZipEntry>)
    ensures |entries| == |files|
    ensures forall k :: 0 <= k < |files| ==>
      entries[k].path == files[k].path && entries[k].content == files[k].content
  {
    seq(|files|, k requires 0 <= k < |files| => EntryOf(files[k]))
  }

  /** One manifest section: a header line naming the path, then the content. */
  function Section(f: SkillFile): (section: string)
    ensures StartsWith(section, "--- FILE: " + f.path + " ---\n")
    ensures EndsWith(section, f.content)
    ensures |section| == |"--- FILE: " + f.path + " ---\n"| + |f.content|
  {
    var header := "--- FILE: " + f.path + " ---\n";
    assert (header + f.content)[..|header|] == header;
    assert (header + f.content)[|header|..] == f.content;
    header + f.content
  }

  /** `Array.prototype.join`: nothing for no parts, the parts with `sep` between them otherwise. */
  function Join(parts: seq<string>, sep: string): string
    decreases |parts|
  {
    if parts == [] then []
    else if |parts| == 1 then parts[0]
    else parts[0] + sep + Join(parts[1..], sep)
  }

  /** Where part `k` starts in the joined text. */
  function Offset(parts: seq<string>, sep: string, k: nat): nat
    requires k <= |parts|
    decreases k
  {
    if k == 0 then 0 else |parts[0]| + |sep| + Offset(parts[1..], sep, k - 1)
  }

  lemma OccursAfter(pre: string, s: string, pat: string, i: nat)
    requires OccursAt(s, pat, i)
    ensures OccursAt(pre + s, pat, |pre| + i)
  {
    assert (pre + s)[|pre| + i..|pre| + i + |pat|] == s[i..i + |pat|];
  }

  lemma OccursBefore(s: string, post: string, pat: string, i: nat)
    requires OccursAt(s, pat, i)
    ensures OccursAt(s + post, pat, i)
  {
    assert (s + post)[i..i + |pat|] == s[i..i + |pat|];
  }

  lemma OccursWithin(s: string, a: string, b: string, i: nat, j: nat)
    requires OccursAt(s, a, i) && OccursAt(a, b, j)
    ensures OccursAt(s, b, i + j)
  {
    forall t | 0 <= t < |b|
      ensures s[i + j..i + j + |b|][t] == b[t]
    {
      assert b[t] == a[j..j + |b|][t] == a[j + t];
      assert a[j + t] == s[i..i + |a|][j + t] == s[i + j + t];
    }
  }

  /** The first part opens the joined text and, when more follow, the separator comes next. */
  lemma JoinFirst(parts: seq<string>, sep: string)
    requires parts != []
    ensures OccursAt(Join(parts, sep), parts[0], 0)
    ensures |parts| > 1 ==> OccursAt(Join(parts, sep), sep, |parts[0]|)
    ensures |parts| == 1 ==> |Join(parts, sep)| == |parts[0]|
  {
    assert parts[0][0..|parts[0]|] == parts[0];
    if |parts| > 1 {
      var tail := Join(parts[1..], sep);
      assert Join(parts, sep) == parts[0] + (sep + tail);
      OccursBefore(parts[0], sep + tail, parts[0], 0);
      assert sep[0..|sep|] == sep;
      OccursBefore(sep, tail, sep, 0);
      OccursAfter(parts[0], sep + tail, sep, 0);
    }
  }

  /**
   * The joined text holds every part at its offset, followed by the separator
   * unless it is the last part, and it ends with the last part; the offsets grow
   * with the index, so the parts appear in their order.
   */
  lemma {:induction false} JoinAt(parts: seq<string>, sep: string, k: nat)
    requires k < |parts|
    ensures OccursAt(Join(parts, sep), parts[k], Offset(parts, sep, k))
    ensures k + 1 < |parts| ==> OccursAt(Join(parts, sep), sep, Offset(parts, sep, k) + |parts[k]|)
    ensures k + 1 < |parts| ==> Offset(parts, sep, k + 1) == Offset(parts, sep, k) + |parts[k]| + |sep|
    ensures k + 1 == |parts| ==> |Join(parts, sep)| == Offset(parts, sep, k) + |parts[k]|
    decreases k
  {
    if k == 0 {
      JoinFirst(parts, sep);
    } else {
      var rest := parts[1..];
      var tail := Join(rest, sep);
      var o := Offset(rest, sep, k - 1);
      JoinAt(rest, sep, k - 1);
      assert Join(parts, sep) == (parts[0] + sep) + tail;
      assert Offset(parts, sep, k) == |parts[0] + sep| + o;
      OccursAfter(parts[0] + sep, tail, parts[k], o);
      if k + 1 < |parts| {
        OccursAfter(parts[0] + sep, tail, sep, o + |parts[k]|);
      }
    }
  }

  function Sections(files: seq<SkillFile>): seq<string> {
    seq(|files|, k requires 0 <= k < |files| => Section(files[k]))
  }

  /** The "tar.gz" payload: every section, in draft order, separated by a blank line. */
  function Manifest(files: seq<SkillFile>): string {
    Join(Sections(files), SectionSeparator)
  }

  /** Section `k` of the manifest describes draft file `k` and sits after sections `0..k`. */
  lemma ManifestSection(files: seq<SkillFile>, k: nat)
    requires k < |files|
    ensures var at := Offset(Sections(files), SectionSeparator, k);
      && OccursAt(Manifest(files), "--- FILE: " + files[k].path + " ---\n", at)
      && OccursAt(Manifest(files), Section(files[k]), at)
  {
    var sec, header := Section(files[k]), "--- FILE: " + files[k].path + " ---\n";
    JoinAt(Sections(files), SectionSeparator, k);
    assert OccursAt(sec, header, 0);
    OccursWithin(Manifest(files), sec, header, Offset(Sections(files), SectionSeparator, k), 0);
  }

  /**
   * The artifact of a download, or `None` when the draft is empty
   * (`if (draftFiles.length === 0) return;`).
   */
  function BundleOf(files: seq<SkillFile>, config: DownloadConfig): (r: Option<Artifact>)
    ensures r.None? <==> files == []
    ensures r.Some? ==> r.value.fileName == DownloadFileName(config)
    ensures r.Some? && config.format == Zip ==>
      && r.value.ZipArchive?
      && r.value.root == OrElse(config.name, DefaultRoot) && r.value.root != []
      && |r.value.entries| == |files|
      && forall k :: 0 <= k < |files| ==>
           r.value.entries[k].path == files[k].path && r.value.entries[k].content == files[k].content
    ensures r.Some? && config.format == TarGz ==>
      && r.value.TextArchive?
      && r.value.mimeType == GzipType
      && r.value.text == Manifest(files)
  {
    if files == [] then None
    else match config.format
      case Zip => Some(ZipArchive(OrElse(config.name, DefaultRoot), ZipEntries(files), DownloadFileName(config)))
      case TarGz => Some(TextArchive(Manifest(files), GzipType, DownloadFileName(config)))
  }

  /** With one draft file the manifest is that file's section alone. */
  lemma SingleFileManifest(f: SkillFile)
    ensures Manifest([f]) == "--- FILE: " + f.path + " ---\n" + f.content
  {
    assert Sections([f]) == [Section(f)];
  }
}

=== FILE: cookbook.dfy ===
/**
 * The cookbook's "Scaffold Architectural Template" buttons (App.tsx:246-281):
 * each builds a one-block `[FILE: SKILL.md]` text from a template's title and
 * description and hands it to `parseGeneratedContent`.
 */
module Cookbook {
  import opened Common
  import opened Text
  import opened Types
  import opened Scanner
  import opened Parser

  /** A cookbook card: its title and description (the icon and the `arch` line are display only). */
  datatype Template = Template(title: string, desc: string)

  /** `.replace(/\s+/g, '-')`: every maximal run of whitespace becomes one `-`. */
  function ReplaceSpaceRuns(s: string): (r: string)
    ensures forall i :: 0 <= i < |r| ==> !IsSpace(r[i])
    ensures forall i :: 0 <= i < |r| ==> r[i] == '-' || r[i] in s
    ensures r == [] <==> s == []
    ensures |r| <= |s|
    decreases |s|
  {
    if s == [] then []
    else if IsSpace(s[0]) then
      var rest := s[SkipSpaces(s, 0)..];
      var r := "-" + ReplaceSpaceRuns(rest);
      assert forall i :: 0 < i < |r| ==> r[i] == '-' || r[i] in rest;
      r
    else
      var r := [s[0]] + ReplaceSpaceRuns(s[1..]);
      assert forall i :: 0 < i < |r| ==> r[i] == '-' || r[i] in s[1..];
      r
  }

  /** Text without whitespace is left as it is. */
  lemma {:induction false} NoSpaceUnchanged(s: string)
    requires forall i :: 0 <= i < |s| ==> !IsSpace(s[i])
    ensures ReplaceSpaceRuns(s) == s
    decreases |s|
  {
    if s != [] {
      NoSpaceUnchanged(s[1..]);
      assert s == [s[0]] + s[1..];
    }
  }

  /** A whole run of whitespace becomes a single `-`. */
  lemma SpaceRunDash(s: string)
    requires s != [] && AllSpace(s)
    ensures ReplaceSpaceRuns(s) == "-"
  {
    assert s[SkipSpaces(s, 0)..] == [];
  }

  /** A character other than whitespace is kept. */
  lemma NonSpaceKept(c: char)
    requires !IsSpace(c)
    ensures ReplaceSpaceRuns([c]) == [c]
  {
    assert [c][1..] == [];
  }

  /** A leading character other than whitespace is kept in front of the rest. */
  lemma KeptThen(c: char, t: string)
    requires !IsSpace(c)
    ensures ReplaceSpaceRuns([c] + t) == [c] + ReplaceSpaceRuns(t)
  {
    assert ([c] + t)[1..] == t;
  }

  /** A leading run of whitespace, ended by the end or a non-space character, becomes one `-`. */
  lemma DashThen(run: string, t: string)
    requires run != [] && AllSpace(run) && (t == [] || !IsSpace(t[0]))
    ensures ReplaceSpaceRuns(run + t) == "-" + ReplaceSpaceRuns(t)
  {
    var s := run + t;
    if t == [] {
      assert s == run;
      assert s[SkipSpaces(s, 0)..] == [];
    } else {
      SpacesThen(s, 0, |run|);
      assert s[|run|..] == t;
    }
  }

  lemma Regroup(x: string, y: string, z: string)
    ensures x + (y + z) == (x + y) + z
  {
  }

  lemma Rejoin(a: string, i: nat)
    requires i <= |a|
    ensures a[..i] + a[i..] == a
  {
  }

  /** The step of `ReplaceSplit` for a text that starts with a kept character. */
  lemma KeptStep(a: string, b: string)
    requires a != [] && !IsSpace(a[0])
    requires ReplaceSpaceRuns(a[1..] + b) == ReplaceSpaceRuns(a[1..]) + ReplaceSpaceRuns(b)
    ensures ReplaceSpaceRuns(a + b) == ReplaceSpaceRuns(a) + ReplaceSpaceRuns(b)
  {
    var c, t := a[0], a[1..];
    Rejoin(a, 1);
    assert a[..1] == [c];
    Regroup([c], t, b);
    KeptThen(c, t);
    KeptThen(c, t + b);
    Regroup([c], ReplaceSpaceRuns(t), ReplaceSpaceRuns(b));
  }

  /** The step of `ReplaceSplit` for a text that starts with a whitespace run ending at `i`. */
  lemma DashStep(a: string, b: string, i: nat)
    requires 0 < i <= |a| && AllSpace(a[..i]) && (i == |a| || !IsSpace(a[i]))
    requires i < |a| || b == [] || !IsSpace(b[0])
    requires ReplaceSpaceRuns(a[i..] + b) == ReplaceSpaceRuns(a[i..]) + ReplaceSpaceRuns(b)
    ensures ReplaceSpaceRuns(a + b) == ReplaceSpaceRuns(a) + ReplaceSpaceRuns(b)
  {
    var run, t := a[..i], a[i..];
    Rejoin(a, i);
    Regroup(run, t, b);
    DashThen(run, t);
    DashThen(run, t + b);
    Regroup("-", ReplaceSpaceRuns(t), ReplaceSpaceRuns(b));
  }

  /**
   * Cutting the text where no whitespace run is split, the two halves are
   * replaced independently: with `SpaceRunDash` and `NonSpaceKept`, each maximal
   * run becomes one `-` and every other character keeps its place.
   */
  lemma {:induction false} ReplaceSplit(a: string, b: string)
    requires a == [] || b == [] || !IsSpace(a[|a| - 1]) || !IsSpace(b[0])
    ensures ReplaceSpaceRuns(a + b) == ReplaceSpaceRuns(a) + ReplaceSpaceRuns(b)
    decreases |a|
  {
    if a == [] {
      Rejoin(a + b, 0);
    } else if !IsSpace(a[0]) {
      assert a[1..] == [] || b == [] || !IsSpace(a[1..][|a[1..]| - 1]) || !IsSpace(b[0]);
      ReplaceSplit(a[1..], b);
      KeptStep(a, b);
    } else {
      var i := SkipSpaces(a, 0);
      assert AllSpace(a[..i]);
      ReplaceSplit(a[i..], b);
      DashStep(a, b, i);
    }
  }

  /** `item.title.toLowerCase().replace(/\s+/g, '-')`: the package name the template asks for. */
  function Slug(title: string): string {
    ReplaceSpaceRuns(Lower(title))
  }

  const Header: string := "[FILE: SKILL.md]\n"

  /** The fixed lines between the description and the title. */
  const Frontmatter: string :=
    "\nmetadata:\n  triggers: " + "[\"create\", \"analyze\"]"
    + "\n  capabilities: " + "[\"code_execution\"]"
    + "\n\n# Instructions\nFollow the "

  /** Everything after the `name:` line's value. */
  function BodyTail(t: Template): string {
    "\ndescription: " + t.desc + Frontmatter + t.title + " audited pattern."
  }

  /** The body of the generated block: the frontmatter lines and one instruction line. */
  function TemplateBody(t: Template): string {
    "name: " + Slug(t.title) + BodyTail(t)
  }

  /** The text the button passes to `parseGeneratedContent` (App.tsx:281). */
  function TemplateText(t: Template): string {
    Header + TemplateBody(t)
  }

  /** `[F` starts at `j`. */
  predicate BracketF(s: string, j: nat)
    requires j + 1 < |s|
  {
    s[j] == '[' && s[j + 1] == 'F'
  }

  /** No position starts `[F`, so no position starts the tag `[FILE:`. */
  predicate NoTagStart(s: string) {
    forall j: nat :: j + 1 < |s| ==> !BracketF(s, j)
  }

  lemma NoTagStartConcat(a: string, b: string)
    requires NoTagStart(a) && NoTagStart(b) && (a == [] || a[|a| - 1] != '[')
    ensures NoTagStart(a + b)
  {
    var s := a + b;
    forall j: nat | j + 1 < |s|
      ensures !BracketF(s, j)
    {
      if j + 1 < |a| {
        assert !BracketF(a, j);
        assert s[j] == a[j] && s[j + 1] == a[j + 1];
      } else if j >= |a| {
        assert !BracketF(b, j - |a|);
        assert s[j] == b[j - |a|] && s[j + 1] == b[j - |a| + 1];
      } else {
        assert s[j] == a[|a| - 1];
      }
    }
  }

  lemma FrontmatterNoTag()
    ensures NoTagStart(Frontmatter) && Frontmatter != [] && Frontmatter[|Frontmatter| - 1] != '['
  {
    var s := "\nmetadata:\n  triggers: ";
    assert NoTagStart(s);
    assert NoTagStart("[\"create\", \"analyze\"]");
    NoTagStartConcat(s, "[\"create\", \"analyze\"]");
    s := s + "[\"create\", \"analyze\"]";
    assert NoTagStart("\n  capabilities: ");
    NoTagStartConcat(s, "\n  capabilities: ");
    s := s + "\n  capabilities: ";
    assert NoTagStart("[\"code_execution\"]");
    NoTagStartConcat(s, "[\"code_execution\"]");
    s := s + "[\"code_execution\"]";
    assert NoTagStart("\n\n# Instructions\nFollow the ");
    NoTagStartConcat(s, "\n\n# Instructions\nFollow the ");
  }

  lemma SlugNoBracket(title: string)
    requires '[' !in title
    ensures '[' !in Slug(title)
  {
    var slug := Slug(title);
    forall i | 0 <= i < |slug|
      ensures slug[i] != '['
    {
      if slug[i] != '-' {
        var lower := Lower(title);
        var k :| 0 <= k < |lower| && lower[k] == slug[i];
        assert LowerChar(title[k]) == slug[i];
      }
    }
  }

  lemma TailNoTag(t: Template)
    requires '[' !in t.title && '[' !in t.desc
    ensures NoTagStart(BodyTail(t))
  {
    FrontmatterNoTag();
    var s := "\ndescription: ";
    NoTagStartConcat(s, t.desc);
    s := s + t.desc;
    NoTagStartConcat(s, Frontmatter);
    s := s + Frontmatter;
    NoTagStartConcat(s, t.title);
    s := s + t.title;
    NoTagStartConcat(s, " audited pattern.");
  }

  /** Without a `[` in the title and the description, only the header holds the tag. */
  lemma BodyNoTag(t: Template)
    requires '[' !in t.title && '[' !in t.desc
    ensures NoTagStart(Header[1..] + TemplateBody(t))
  {
    TailNoTag(t);
    SlugNoBracket(t.title);
    NoTagStartConcat("name: ", Slug(t.title));
    NoTagStartConcat("name: " + Slug(t.title), BodyTail(t));
    assert Header[1..] == "FILE: SKILL.md]\n";
    assert NoTagStart("FILE: SKILL.md]\n");
    NoTagStartConcat(Header[1..], TemplateBody(t));
  }

  lemma NoTagAfterStart(s: string, j: nat)
    requires |s| >= 1 && NoTagStart(s[1..]) && 1 <= j
    ensures !TagAt(s, j)
  {
    if j + |Tag| <= |s| {
      assert !BracketF(s[1..], j - 1);
      assert s[1..][j - 1] == s[j] && s[1..][j] == s[j + 1];
      assert s[j..j + |Tag|][0] == s[j] && s[j..j + |Tag|][1] == s[j + 1];
    }
  }

  lemma {:induction false} SpacesThen(s: string, i: nat, j: nat)
    requires i <= j < |s| && !IsSpace(s[j])
    requires forall k :: i <= k < j ==> IsSpace(s[k])
    ensures SkipSpaces(s, i) == j
    decreases j - i
  {
    if i < j {
      SpacesThen(s, i + 1, j);
    }
  }

  lemma {:induction false} BracketAt(s: string, i: nat, e: nat)
    requires i <= e < |s| && s[e] == ']'
    requires forall k :: i <= k < e ==> s[k] != ']' && !IsLineTerminator(s[k])
    ensures CloseBracket(s, i) == Some(e)
    decreases e - i
  {
    if i < e {
      BracketAt(s, i + 1, e);
    }
  }

  /** The characters of the marker line as the scanner sees them. */
  lemma HeaderChars(body: string)
    ensures var text := Header + body;
      && |text| == |Header| + |body| && text[|Header|..] == body && text[|Header|..|text|] == body
      && text[1..] == Header[1..] + body && text[7..15] == "SKILL.md"
      && TagAt(text, 0) && text[6] == ' ' && text[7] == 'S' && text[15] == ']' && text[16] == '\n'
      && (forall k :: 8 <= k < 15 ==> text[k] != ']' && !IsLineTerminator(text[k]))
  {
    var text := Header + body;
    assert text[0..|Tag|] == Header[0..|Tag|];
    assert forall k :: 0 <= k < |Header| ==> text[k] == Header[k];
    assert text[8] == 'K' && text[9] == 'I' && text[10] == 'L' && text[11] == 'L';
    assert text[12] == '.' && text[13] == 'm' && text[14] == 'd';
    assert text[7..15] == Header[7..15];
  }

  /** The marker at the start spans the whole header and the body runs to the end. */
  lemma HeaderMatch(body: string)
    requires body != [] && !IsSpace(body[0]) && NoTagStart(Header[1..] + body)
    ensures MatchAt(Header + body, 0) == Some(Match(0, 7, 15, |Header|, |Header| + |body|))
  {
    var text := Header + body;
    HeaderChars(body);
    SpacesThen(text, 6, 7);
    BracketAt(text, 8, 15);
    SpacesThen(text, 16, |Header|);
    var nt := NextTag(text, |Header|);
    if nt < |text| {
      NoTagAfterStart(text, nt);
    }
  }

  /**
   * A text made of the `SKILL.md` marker line and a body that starts with a
   * visible character and holds no further tag is scanned as a single block
   * whose body is the rest of the text.
   */
  lemma SingleBlockScan(body: string)
    requires body != [] && !IsSpace(body[0]) && NoTagStart(Header[1..] + body)
    ensures Scan(Header + body, 0) == [Match(0, 7, 15, |Header|, |Header| + |body|)]
  {
    var text := Header + body;
    HeaderMatch(body);
    HeaderChars(body);
    NoTagAfterStart(text, |text|);
    assert MatchAt(text, |text|).None?;
    assert Scan(text, |text|) == [];
  }

  /** The record for a `SKILL.md` block whose body is already trimmed and unfenced. */
  lemma SkillMdRecord(body: string)
    requires body != [] && !IsSpace(body[0]) && !IsSpace(body[|body| - 1])
    requires !StartsWith(body, Fence) && !EndsWith(body, CloseFence)
    ensures MakeFile("SKILL.md", body) == SkillFile("SKILL.md", "SKILL.md", body, "markdown")
  {
    SkillMdPath();
    TrimOfTrimmed(body);
    NoFenceUnchanged(body);
  }

  lemma SkillMdPath()
    ensures Trim("SKILL.md") == "SKILL.md" && BaseName("SKILL.md") == "SKILL.md"
    ensures LanguageOf("SKILL.md") == "markdown"
  {
    TrimOfTrimmed("SKILL.md");
    assert '/' !in "SKILL.md";
    assert "SKILL.md"[5..] != ".py" && "SKILL.md"[3..] != ".json";
  }

  /** `'SKILL.md'.toLowerCase()` is `'skill.md'`. */
  lemma SkillMdIsInstruction()
    ensures IsInstructionPath("SKILL.md")
  {
    assert Lower("SKILL.md") == "skill.md";
    assert OccursAt(Lower("SKILL.md"), "skill.md", 0);
  }

  /** Such a text parses to one `SKILL.md` record holding the body, when the body is already trimmed and unfenced. */
  lemma SingleBlockParse(body: string)
    requires body != [] && !IsSpace(body[0]) && !IsSpace(body[|body| - 1])
    requires NoTagStart(Header[1..] + body)
    requires !StartsWith(body, Fence) && !EndsWith(body, CloseFence)
    ensures Parse(Header + body) == [SkillFile("SKILL.md", "SKILL.md", body, "markdown")]
  {
    var text := Header + body;
    var m := Match(0, 7, 15, |Header|, |text|);
    assert Parse(text) == Files(text, [m]) by {
      SingleBlockScan(body);
    }
    assert FileOf(text, m) == MakeFile("SKILL.md", body) by {
      HeaderChars(body);
      assert text[m.capStart..m.capEnd] == "SKILL.md";
      assert text[m.bodyStart..m.bodyEnd] == body;
    }
    SkillMdRecord(body);
  }

  /** `name: v` followed by a line break captures `v` when `v` holds no whitespace. */
  lemma NameLine(v: string, rest: string)
    requires v != [] && (forall i :: 0 <= i < |v| ==> !IsSpace(v[i]))
    requires rest != [] && rest[0] == '\n'
    ensures KeyCapture("name: " + v + rest, "name:") == Some(v)
  {
    var s := "name: " + v + rest;
    assert OccursAt(s, "name:", 0);
    assert s[5] == ' ' && s[6] == v[0];
    assert SkipSpaces(s, 5) == 6;
    assert forall k :: 0 <= k < |v| ==> s[6 + k] == v[k];
    assert s[6 + |v|] == '\n';
    assert LineEnd(s, 6) == 6 + |v|;
    assert s[6..6 + |v|] == v;
  }

  /**
   * Scaffolding a template drafts exactly one file, `SKILL.md`, whose content is
   * the generated body, and names the package by the slug of the title.
   */
  lemma TemplateParse(t: Template, current: string)
    requires t.title != [] && '[' !in t.title && '[' !in t.desc
    ensures Parse(TemplateText(t)) == [SkillFile("SKILL.md", "SKILL.md", TemplateBody(t), "markdown")]
    ensures Resolve(Parse(TemplateText(t)), current) == Slug(t.title)
  {
    var body, slug, tail := TemplateBody(t), Slug(t.title), BodyTail(t);
    BodyNoTag(t);
    assert body[0] == 'n';
    assert tail[|tail| - 1] == '.';
    assert body[|body| - 1] == tail[|tail| - 1];
    SingleBlockParse(body);
    NameLine(slug, tail);
    TrimOfTrimmed(slug);
    SkillMdIsInstruction();
  }
}

=== FILE: library.dfy ===
/**
 * The library record `saveToLibrary` builds from the draft (App.tsx:93-107):
 * the instructions are the content of the FIRST instruction file, the
 * description is the untrimmed `description:` capture of those instructions.
 */
module Library {
  import opened Common
  import opened Text
  import opened Types
  import opened Parser

  const DefaultDescription: string := "Expert Agent Module"
  const InitialVersion: string := "1.0.0"

  /** `draftFiles.find(f => f.path.toLowerCase().includes('skill.md'))`, as an index. */
  function FirstInstruction(files: seq<SkillFile>): (r: Option<nat>)
    ensures r.Some? ==> r.value < |files| && IsInstructionPath(files[r.value].path)
    ensures r.Some? ==> forall j :: 0 <= j < r.value ==> !IsInstructionPath(files[j].path)
    ensures r.None? ==> forall j :: 0 <= j < |files| ==> !IsInstructionPath(files[j].path)
  {
    if files == [] then None
    else if IsInstructionPath(files[0].path) then Some(0)
    else match FirstInstruction(files[1..])
      case None => None
      case Some(k) => Some(k + 1)
  }

  /** `?.content || ""`: the content of the first instruction file, or nothing. */
  function InstructionsOf(files: seq<SkillFile>): string {
    match FirstInstruction(files)
    case None => []
    case Some(k) => files[k].content
  }

  /**
   * `skillMd.match(/description:\s*(.*)/)?.[1] || "Expert Agent Module"`: the
   * rest of the line after the first `description:` and the whitespace after it,
   * not trimmed at the end; the default when the key is missing or nothing follows.
   */
  function DescriptionOf(instructions: string): (d: string)
    ensures d != []
    ensures forall i :: 0 <= i < |d| ==> !IsLineTerminator(d[i])
    ensures d == DefaultDescription <==>
      (!Contains(instructions, "description:")
       || KeyCapture(instructions, "description:").value in {[], DefaultDescription})
    ensures d != DefaultDescription ==> KeyCapture(instructions, "description:") == Some(d)
  {
    match KeyCapture(instructions, "description:")
    case Some(v) => if v != [] then v else DefaultDescription
    case None => DefaultDescription
  }

  /** The record literal of App.tsx:95-107, with the random id and the clock as parameters. */
  function NewSkill(files: seq<SkillFile>, name: string, id: string, updatedAt: int): AgentSkill {
    var instructions := InstructionsOf(files);
    AgentSkill(
      id, name, DescriptionOf(instructions),
      SkillMetadata(None, InitialVersion, [], []),
      instructions, files, updatedAt)
  }

  /**
   * The saved instructions come from the first instruction file even when a
   * later one exists, and the record copies the draft and its name unchanged.
   */
  lemma SavedFromFirstInstruction(files: seq<SkillFile>, name: string, id: string, updatedAt: int, k: nat)
    requires k < |files| && IsInstructionPath(files[k].path)
    requires forall j :: 0 <= j < k ==> !IsInstructionPath(files[j].path)
    ensures var skill := NewSkill(files, name, id, updatedAt);
      && skill.instructions == files[k].content
      && skill.description == DescriptionOf(files[k].content)
      && skill.files == files && skill.name == name
      && skill.metadata.version == InitialVersion
      && skill.metadata.triggers == [] && skill.metadata.capabilities == []
  {
  }

  /** Without an instruction file the record has empty instructions and the default description. */
  lemma SavedWithoutInstruction(files: seq<SkillFile>, name: string, id: string, updatedAt: int)
    requires forall j :: 0 <= j < |files| ==> !IsInstructionPath(files[j].path)
    ensures NewSkill(files, name, id, updatedAt).instructions == []
    ensures NewSkill(files, name, id, updatedAt).description == DefaultDescription
  {
    assert !Contains([], "description:");
  }
}

=== FILE: parser.dfy ===
/**
 * From the matches of the scanner to `SkillFile` records and a package name
 * (`parseGeneratedContent`, App.tsx:31-58): path trimming, fence stripping,
 * name and language derivation, and the `name:` lookup in instruction files.
 */
module Parser {
  import opened Common
  import opened Text
  import opened Scanner
  import opened Types

  /** `path.split('/').pop()`: the text after the last `/`. */
  function LastSegment(path: string): (seg: string)
    ensures EndsWith(path, seg)
    ensures '/' !in seg
    ensures seg == path || path[|path| - |seg| - 1] == '/'
  {
    if path == [] || path[|path| - 1] == '/' then []
    else LastSegment(path[..|path| - 1]) + [path[|path| - 1]]
  }

  /** `path.split('/').pop() || path` */
  function BaseName(path: string): (name: string)
    ensures EndsWith(path, name)
    ensures '/' !in path ==> name == path
    ensures '/' in path && path[|path| - 1] == '/' ==> name == path
    ensures '/' in path && path[|path| - 1] != '/' ==>
      name != [] && '/' !in name && path[|path| - |name| - 1] == '/'
  {
    var seg := LastSegment(path);
    if seg == [] then path else seg
  }

  /** The display tag chosen by suffix, `.py` taking precedence. */
  function LanguageOf(path: string): (lang: string)
    ensures lang == "python" <==> EndsWith(path, ".py")
    ensures lang == "json" <==> !EndsWith(path, ".py") && EndsWith(path, ".json")
    ensures lang == "markdown" <==> !EndsWith(path, ".py") && !EndsWith(path, ".json")
  {
    if EndsWith(path, ".py") then "python"
    else if EndsWith(path, ".json") then "json"
    else "markdown"
  }

  const Fence: string := "```"
  const CloseFence: string := "\n```"

  /** `[a-z]` under the `i` flag. */
  predicate IsAsciiLetter(c: char) {
    ('a' <= c <= 'z') || ('A' <= c <= 'Z')
  }

  function LettersEnd(s: string, i: nat): (j: nat)
    requires i <= |s|
    ensures i <= j <= |s|
    ensures forall k :: i <= k < j ==> IsAsciiLetter(s[k])
    ensures j == |s| || !IsAsciiLetter(s[j])
    decreases |s| - i
  {
    if i == |s| || !IsAsciiLetter(s[i]) then i else LettersEnd(s, i + 1)
  }

  /** The length of an opening line matched by `/^```[a-z]*\n/i`, or 0 when there is none. */
  function OpenFenceLength(body: string): (n: nat)
    ensures n <= |body|
    ensures n > 0 ==> |Fence| < n && StartsWith(body, Fence) && body[n - 1] == '\n'
    ensures n > 0 ==> forall k :: |Fence| <= k < n - 1 ==> IsAsciiLetter(body[k])
  {
    if StartsWith(body, Fence) then
      var j := LettersEnd(body, |Fence|);
      if j < |body| && body[j] == '\n' then j + 1 else 0
    else 0
  }

  /**
   * `.replace(/^```[a-z]*\n/i, '').replace(/\n```$/i, '')`: at most one opening
   * fence line and then at most one closing `\n```` at the very end are cut off;
   * what remains is a contiguous part of the body.
   */
  function StripFences(body: string): (content: string)
    ensures OpenFenceLength(body) + |content| <= |body|
    ensures content == body[OpenFenceLength(body)..OpenFenceLength(body) + |content|]
    ensures var rest := body[OpenFenceLength(body)..];
      && (EndsWith(rest, CloseFence) ==> content == rest[..|rest| - |CloseFence|])
      && (!EndsWith(rest, CloseFence) ==> content == rest)
  {
    var rest := body[OpenFenceLength(body)..];
    if EndsWith(rest, CloseFence) then rest[..|rest| - |CloseFence|] else rest
  }

  /** Every opening fence line is recognised, whatever letters tag it. */
  lemma OpenFenceRecognised(body: string, j: nat)
    requires StartsWith(body, Fence) && |Fence| <= j < |body| && body[j] == '\n'
    requires forall k :: |Fence| <= k < j ==> IsAsciiLetter(body[k])
    ensures OpenFenceLength(body) == j + 1
  {
    LettersRun(body, |Fence|, j);
  }

  /** An opening fence without a closing one: only the fence line goes. */
  lemma OpenFenceOnly(tag: string, code: string)
    requires forall k :: 0 <= k < |tag| ==> IsAsciiLetter(tag[k])
    requires !EndsWith(code, CloseFence)
    ensures StripFences(Fence + tag + "\n" + code) == code
  {
    var body := Fence + tag + "\n" + code;
    assert StartsWith(body, Fence);
    OpenFenceRecognised(body, |Fence| + |tag|);
    assert body[|Fence| + |tag| + 1..] == code;
  }

  /** A closing fence without an opening one: only the closing fence goes. */
  lemma CloseFenceOnly(code: string)
    requires !StartsWith(code + CloseFence, Fence)
    ensures StripFences(code + CloseFence) == code
  {
    var body := code + CloseFence;
    assert body[|body| - |CloseFence|..] == CloseFence;
    assert body[..|body| - |CloseFence|] == code;
  }

  /** A body wrapped in a fenced block comes back exactly. */
  lemma FenceRoundTrip(tag: string, code: string)
    requires forall k :: 0 <= k < |tag| ==> IsAsciiLetter(tag[k])
    ensures StripFences(Fence + tag + "\n" + code + CloseFence) == code
  {
    var body := Fence + tag + "\n" + code + CloseFence;
    assert StartsWith(body, Fence);
    assert body[|Fence| + |tag|] == '\n';
    assert LettersEnd(body, |Fence|) == |Fence| + |tag| by {
      LettersRun(body, |Fence|, |Fence| + |tag|);
    }
    var rest := body[OpenFenceLength(body)..];
    assert rest == code + CloseFence;
  }

  lemma {:induction false} LettersRun(s: string, i: nat, j: nat)
    requires i <= j < |s|
    requires forall k :: i <= k < j ==> IsAsciiLetter(s[k])
    requires !IsAsciiLetter(s[j])
    ensures LettersEnd(s, i) == j
    decreases j - i
  {
    if i < j {
      LettersRun(s, i + 1, j);
    }
  }

  /** Text without fences is left as it is. */
  lemma NoFenceUnchanged(body: string)
    requires !StartsWith(body, Fence) && !EndsWith(body, CloseFence)
    ensures StripFences(body) == body
  {
  }

  /** The record built for one block (App.tsx:38-41, 48). */
  function MakeFile(capture: string, body: string): SkillFile {
    var path := Trim(capture);
    SkillFile(BaseName(path), path, StripFences(Trim(body)), LanguageOf(path))
  }

  /** The record for a match of the scanner. */
  function FileOf(s: string, m: Match): SkillFile
    requires InText(s, m)
  {
    MakeFile(s[m.capStart..m.capEnd], s[m.bodyStart..m.bodyEnd])
  }

  /** The records built for a list of matches, one each, in order. */
  function Files(s: string, ms: seq<Match>): (files: seq<SkillFile>)
    requires forall k :: 0 <= k < |ms| ==> InText(s, ms[k])
    ensures |files| == |ms|
  {
    if ms == [] then [] else [FileOf(s, ms[0])] + Files(s, ms[1..])
  }

  /** Record `k` is built from match `k`. */
  lemma {:induction false} FilesAt(s: string, ms: seq<Match>, k: nat)
    requires forall k :: 0 <= k < |ms| ==> InText(s, ms[k])
    requires k < |ms|
    ensures Files(s, ms)[k] == FileOf(s, ms[k])
    decreases k
  {
    if k > 0 {
      FilesAt(s, ms[1..], k - 1);
    }
  }

  /** The `files` array `parseGeneratedContent` builds: one record per match, in order. */
  function Parse(s: string): seq<SkillFile> {
    Files(s, Scan(s, 0))
  }

  /**
   * One turn of the `exec` loop: the match found from `from` gives the next
   * record and the next name, and the loop resumes after its body.
   */
  lemma ParseStep(s: string, from: nat, m: Match, done: seq<SkillFile>, current: string)
    requires from <= |s| && Exec(s, from) == Some(m)
    ensures InText(s, m) && from < m.bodyEnd
    ensures Files(s, Scan(s, from)) == [FileOf(s, m)] + Files(s, Scan(s, m.bodyEnd))
    ensures done + Files(s, Scan(s, from)) == (done + [FileOf(s, m)]) + Files(s, Scan(s, m.bodyEnd))
    ensures Resolve(Files(s, Scan(s, from)), current)
      == Resolve(Files(s, Scan(s, m.bodyEnd)), NameFrom(FileOf(s, m)).GetOr(current))
  {
    var rest := Scan(s, m.bodyEnd);
    assert Scan(s, from) == [m] + rest;
    assert ([m] + rest)[1..] == rest;
    AppendRegroup(done, FileOf(s, m), Files(s, rest));
  }

  lemma AppendRegroup(done: seq<SkillFile>, f: SkillFile, later: seq<SkillFile>)
    ensures done + ([f] + later) == (done + [f]) + later
  {
  }

  /**
   * Record `k` comes from the `k`-th match of the unique segmentation of the text:
   * its path is the trimmed capture, its name the base name of that path, its
   * language the one the path's suffix selects, its content the trimmed and
   * de-fenced body, and that body runs up to the next literal `[FILE:` or to the
   * end of the text. Records are never merged, so equal paths give separate records.
   */
  lemma ParseBlocks(s: string, k: nat)
    requires k < |Parse(s)|
    ensures IsScanFrom(s, 0, Scan(s, 0))
    ensures var m := Scan(s, 0)[k];
      && MatchAt(s, m.start) == Some(m)
      && Parse(s)[k].path == Trim(s[m.capStart..m.capEnd])
      && Parse(s)[k].name == BaseName(Parse(s)[k].path)
      && Parse(s)[k].language == LanguageOf(Parse(s)[k].path)
      && Parse(s)[k].content == StripFences(Trim(s[m.bodyStart..m.bodyEnd]))
      && (forall j :: m.bodyStart <= j < m.bodyEnd ==> !TagAt(s, j))
      && (m.bodyEnd == |s| || TagAt(s, m.bodyEnd))
  {
    ScanIsScan(s, 0);
    ScanMatches(s, 0, k);
    FilesAt(s, Scan(s, 0), k);
    MatchBody(s, Scan(s, 0)[k].start);
  }

  /** No file is produced exactly when no position of the text starts a well-formed marker. */
  lemma ParseEmptyIff(s: string)
    ensures Parse(s) == [] <==> NoMatchIn(s, 0, |s| + 1)
  {
    ScanIsScan(s, 0);
    if NoMatchIn(s, 0, |s| + 1) {
      ScanUnique(s, 0, []);
    }
  }

  /** Trimming keeps every character property of the capture, and `]` stays out of
      every position but the first. */
  lemma TrimmedCapture(cap: string)
    requires forall j :: 0 <= j < |cap| ==> !IsLineTerminator(cap[j])
    requires forall j :: 0 < j < |cap| ==> cap[j] != ']'
    ensures forall j :: 0 <= j < |Trim(cap)| ==> !IsLineTerminator(Trim(cap)[j])
    ensures forall j :: 0 < j < |Trim(cap)| ==> Trim(cap)[j] != ']'
  {
    var path, i := Trim(cap), SkipSpaces(cap, 0);
    assert forall j :: 0 <= j < |path| ==> path[j] == cap[i + j];
  }

  /** Every parsed record keeps the shape the marker allows: the path is trimmed,
      lies on one line, has no `]` after its first character, and ends with the name. */
  lemma ParsedPathShape(s: string, k: nat)
    requires k < |Parse(s)|
    ensures var f := Parse(s)[k];
      && (f.path == [] || (!IsSpace(f.path[0]) && !IsSpace(f.path[|f.path| - 1])))
      && (forall j :: 0 <= j < |f.path| ==> !IsLineTerminator(f.path[j]))
      && (forall j :: 0 < j < |f.path| ==> f.path[j] != ']')
      && EndsWith(f.path, f.name)
  {
    var ms := Scan(s, 0);
    var m, f := ms[k], Parse(s)[k];
    var cap := s[m.capStart..m.capEnd];
    assert f == FileOf(s, m) by {
      FilesAt(s, ms, k);
    }
    assert f.path == Trim(cap) && f.name == BaseName(f.path);
    assert (forall j :: 0 <= j < |cap| ==> !IsLineTerminator(cap[j]))
        && (forall j :: 0 < j < |cap| ==> cap[j] != ']') by {
      ScanMatches(s, 0, k);
      CaptureShape(s, m);
    }
    TrimmedCapture(cap);
  }

  /** `path.toLowerCase().includes('skill.md')`: the instruction file test. */
  predicate IsInstructionPath(path: string) {
    Contains(Lower(path), "skill.md")
  }

  /** The test ignores case and position: `SKILL.md` or `skill.md` anywhere in the path qualifies. */
  lemma InstructionPathAnywhere(pre: string, post: string)
    ensures IsInstructionPath(pre + "SKILL.md" + post)
    ensures IsInstructionPath(pre + "skill.md" + post)
  {
    var upper, lower := pre + "SKILL.md" + post, pre + "skill.md" + post;
    assert Lower(upper)[|pre|..|pre| + 8] == "skill.md";
    assert Lower(lower)[|pre|..|pre| + 8] == "skill.md";
    assert OccursAt(Lower(upper), "skill.md", |pre|);
    assert OccursAt(Lower(lower), "skill.md", |pre|);
  }

  /** The package name a block contributes: the trimmed `name:` capture of an instruction file. */
  function NameFrom(f: SkillFile): (r: Option<string>)
    ensures r.Some? ==> IsInstructionPath(f.path) && KeyCapture(f.content, "name:").Some?
    ensures r.Some? ==> r.value == Trim(KeyCapture(f.content, "name:").value)
    ensures IsInstructionPath(f.path) && Contains(f.content, "name:") ==> r.Some?
  {
    if IsInstructionPath(f.path) then
      match KeyCapture(f.content, "name:")
      case None => None
      case Some(v) => Some(Trim(v))
    else None
  }

  /** `foundName` after the loop has seen `files`, having started at `current`. */
  function Resolve(files: seq<SkillFile>, current: string): string
    decreases |files|
  {
    if files == [] then current
    else Resolve(files[1..], NameFrom(files[0]).GetOr(current))
  }

  /** Without any block naming the package, the fallback stands. */
  lemma {:induction false} ResolveFallback(files: seq<SkillFile>, current: string)
    requires forall j :: 0 <= j < |files| ==> NameFrom(files[j]).None?
    ensures Resolve(files, current) == current
    decreases |files|
  {
    if files != [] {
      assert NameFrom(files[0]).None?;
      ResolveFallback(files[1..], current);
    }
  }

  /** The last block that names the package wins, whatever came before. */
  lemma {:induction false} ResolveLastWins(files: seq<SkillFile>, current: string, k: nat)
    requires k < |files| && NameFrom(files[k]).Some?
    requires forall j :: k < j < |files| ==> NameFrom(files[j]).None?
    ensures Resolve(files, current) == NameFrom(files[k]).value
    decreases |files|
  {
    var next := NameFrom(files[0]).GetOr(current);
    if k == 0 {
      ResolveFallback(files[1..], next);
    } else {
      ResolveLastWins(files[1..], next, k - 1);
    }
  }

  /** Once some block names the package, the starting name no longer matters. */
  lemma {:induction false} ResolveIgnoresFallback(files: seq<SkillFile>, a: string, b: string, k: nat)
    requires k < |files| && NameFrom(files[k]).Some?
    ensures Resolve(files, a) == Resolve(files, b)
    decreases |files|
  {
    var n := NameFrom(files[0]);
    var a', b' := n.GetOr(a), n.GetOr(b);
    assert Resolve(files, a) == Resolve(files[1..], a') && Resolve(files, b) == Resolve(files[1..], b');
    if k == 0 {
      assert a' == b';
    } else {
      assert files[1..][k - 1] == files[k];
      ResolveIgnoresFallback(files[1..], a', b', k - 1);
    }
  }

  /** Resolving again from the resolved name changes nothing. */
  lemma ResolveIdempotent(files: seq<SkillFile>, current: string)
    ensures Resolve(files, Resolve(files, current)) == Resolve(files, current)
  {
    if k :| 0 <= k < |files| && NameFrom(files[k]).Some? {
      ResolveIgnoresFallback(files, Resolve(files, current), current, k);
    } else {
      ResolveFallback(files, current);
    }
  }
}

=== FILE: scanner.dfy ===
/**
 * The file-block wire format, recognised the way the global regular expression
 * `/\[FILE:\s*(.+?)\]\s*\n?([\s\S]*?)(?=\[FILE:|$)/g` of App.tsx recognises it,
 * written out as an explicit scanner.
 *
 * A match starting at `p` is the literal `[FILE:`, a run of whitespace, a path
 * capture `s[capStart..capEnd]` on one line, the `]` at `capEnd`, the whitespace
 * after it, and a body `s[bodyStart..bodyEnd]` that stops at the next literal
 * `[FILE:` or at the end of the text.
 */
module Scanner {
  import opened Common
  import opened Text

  const Tag: string := "[FILE:"

  predicate TagAt(s: string, p: nat) {
    OccursAt(s, Tag, p)
  }

  /** The first `]` at or after `i` and before the end of the line. */
  function CloseBracket(s: string, i: nat): (r: Option<nat>)
    requires i <= |s|
    ensures r.Some? ==> i <= r.value < LineEnd(s, i) && s[r.value] == ']'
    ensures r.Some? ==> forall k :: i <= k < r.value ==> s[k] != ']'
    ensures r.None? ==> forall k :: i <= k < LineEnd(s, i) ==> s[k] != ']'
    decreases |s| - i
  {
    if i == |s| || IsLineTerminator(s[i]) then None
    else if s[i] == ']' then Some(i)
    else CloseBracket(s, i + 1)
  }

  /** The bounds of the path capture `(.+?)`; `]` sits at `capEnd`. */
  datatype Marker = Marker(capStart: nat, capEnd: nat)

  /**
   * What the regular expression accepts for `\[FILE:\s*(.+?)\]` at `p` with
   * the capture `s[cs..ce]`, before any preference between alternatives.
   */
  ghost predicate CaptureFits(s: string, p: nat, cs: nat, ce: nat) {
    && TagAt(s, p)
    && p + |Tag| <= cs < ce < |s|
    && (forall k :: p + |Tag| <= k < cs ==> IsSpace(s[k]))
    && (forall k :: cs <= k < ce ==> !IsLineTerminator(s[k]))
    && s[ce] == ']'
  }

  /**
   * The marker part of the pattern tried at `p`, as the backtracking engine
   * settles it: the greedy `\s*` first takes the whole whitespace run and the
   * lazy `(.+?)` then stops at the first `]` on the line; only if that fails does
   * `\s*` give back one whitespace character, which succeeds exactly when the
   * run is followed by `]` (so `[FILE: ]` captures the single space).
   */
  function MarkerAt(s: string, p: nat): (r: Option<Marker>)
    requires p <= |s|
    ensures r.Some? ==> CaptureFits(s, p, r.value.capStart, r.value.capEnd)
    ensures r.Some? ==> forall k :: r.value.capStart < k < r.value.capEnd ==> s[k] != ']'
  {
    if !TagAt(s, p) then None
    else
      var q := SkipSpaces(s, p + |Tag|);
      if q == |s| then None
      else
        match CloseBracket(s, q + 1)
        case Some(e) => Some(Marker(q, e))
        case None =>
          if s[q] == ']' && q > p + |Tag| && !IsLineTerminator(s[q - 1]) then Some(Marker(q - 1, q))
          else None
  }

  /**
   * MarkerAt finds a capture whenever the pattern admits one, and it finds the
   * one a backtracking engine tries first: the latest start (greedy `\s*`),
   * then the earliest end (lazy `.+?`).
   */
  lemma MarkerAtIsFirstFit(s: string, p: nat, cs: nat, ce: nat)
    requires p <= |s| && CaptureFits(s, p, cs, ce)
    ensures MarkerAt(s, p).Some?
    ensures cs <= MarkerAt(s, p).value.capStart
    ensures cs == MarkerAt(s, p).value.capStart ==> MarkerAt(s, p).value.capEnd <= ce
  {
    var q := SkipSpaces(s, p + |Tag|);
    assert cs <= q <= ce;
    var le := LineEnd(s, q + 1);
    assert ce > q ==> le > ce;
  }

  /** One match of the whole pattern: marker, whitespace, body up to the lookahead. */
  datatype Match = Match(start: nat, capStart: nat, capEnd: nat, bodyStart: nat, bodyEnd: nat)

  /** The lazy body `([\s\S]*?)` stops at the first `[FILE:` at or after `i`, else at the end. */
  function NextTag(s: string, i: nat): (t: nat)
    requires i <= |s|
    ensures i <= t <= |s|
    ensures forall j :: i <= j < t ==> !TagAt(s, j)
    ensures t == |s| || TagAt(s, t)
    decreases |s| - i
  {
    if i == |s| || TagAt(s, i) then i else NextTag(s, i + 1)
  }

  /** The whole pattern tried at `p`. */
  function MatchAt(s: string, p: nat): (r: Option<Match>)
    requires p <= |s|
    ensures r.Some? ==> r.value.start == p
    ensures r.Some? ==> p + |Tag| <= r.value.capStart < r.value.capEnd < r.value.bodyStart <= r.value.bodyEnd <= |s|
  {
    match MarkerAt(s, p)
    case None => None
    case Some(mk) =>
      var b := SkipSpaces(s, mk.capEnd + 1);
      Some(Match(p, mk.capStart, mk.capEnd, b, NextTag(s, b)))
  }

  /** A match is a marker as MarkerAt finds it; its body starts after the whitespace
      that follows `]` and runs up to the first literal `[FILE:` after that or to the
      end of the text. */
  lemma MatchBody(s: string, p: nat)
    requires p <= |s| && MatchAt(s, p).Some?
    ensures var m := MatchAt(s, p).value;
      && MarkerAt(s, p) == Some(Marker(m.capStart, m.capEnd))
      && (forall k :: m.capEnd < k < m.bodyStart ==> IsSpace(s[k]))
      && (m.bodyStart == |s| || !IsSpace(s[m.bodyStart]))
      && (forall j :: m.bodyStart <= j < m.bodyEnd ==> !TagAt(s, j))
      && (m.bodyEnd == |s| || TagAt(s, m.bodyEnd))
  {
  }

  /** The path capture of a match lies on one line and holds no `]` after its first character. */
  lemma CaptureShape(s: string, m: Match)
    requires m.start <= |s| && MatchAt(s, m.start) == Some(m)
    ensures m.capStart <= m.capEnd <= |s|
    ensures var cap := s[m.capStart..m.capEnd];
      && (forall j :: 0 <= j < |cap| ==> !IsLineTerminator(cap[j]))
      && (forall j :: 0 < j < |cap| ==> cap[j] != ']')
  {
    MatchBody(s, m.start);
    var cap := s[m.capStart..m.capEnd];
    assert forall j :: 0 <= j < |cap| ==> cap[j] == s[m.capStart + j];
  }

  ghost predicate NoMatchIn(s: string, lo: nat, hi: nat) {
    forall p: nat :: lo <= p < hi && p <= |s| ==> MatchAt(s, p).None?
  }

  /** `RegExp.prototype.exec` from `lastIndex == from`: the leftmost match at or after `from`. */
  function Exec(s: string, from: nat): (r: Option<Match>)
    requires from <= |s|
    ensures r.Some? ==> from <= r.value.start <= |s| && MatchAt(s, r.value.start) == r
    decreases |s| - from
  {
    match MatchAt(s, from)
    case Some(m) => Some(m)
    case None => if from == |s| then None else Exec(s, from + 1)
  }

  /** `exec` skips no match: nothing between `from` and the match it returns, nor
      after `from` when it returns null, starts a match. */
  lemma {:induction false} ExecLeftmost(s: string, from: nat)
    requires from <= |s|
    ensures Exec(s, from).Some? ==> NoMatchIn(s, from, Exec(s, from).value.start)
    ensures Exec(s, from).None? ==> NoMatchIn(s, from, |s| + 1)
    decreases |s| - from
  {
    if MatchAt(s, from).Some? {
      ExecHere(s, from);
    } else if from == |s| {
      ExecHere(s, from);
    } else {
      ExecLeftmost(s, from + 1);
      ExecLeftmostStep(s, from);
    }
  }

  /** The inductive step of `ExecLeftmost`: a failed attempt at `from` extends the
      match-free stretch found from `from + 1` down to `from`. */
  lemma ExecLeftmostStep(s: string, from: nat)
    requires from < |s| && MatchAt(s, from).None?
    requires Exec(s, from + 1).Some? ==> NoMatchIn(s, from + 1, Exec(s, from + 1).value.start)
    requires Exec(s, from + 1).None? ==> NoMatchIn(s, from + 1, |s| + 1)
    ensures Exec(s, from).Some? ==> NoMatchIn(s, from, Exec(s, from).value.start)
    ensures Exec(s, from).None? ==> NoMatchIn(s, from, |s| + 1)
  {
    ExecSkip(s, from);
    match Exec(s, from + 1)
    case Some(m) => NoMatchGrow(s, from, m.start);
    case None => NoMatchGrow(s, from, |s| + 1);
  }

  /** `exec` stops at a match, or fails at the end of the text. */
  lemma ExecHere(s: string, from: nat)
    requires from <= |s| && (MatchAt(s, from).Some? || from == |s|)
    ensures Exec(s, from) == MatchAt(s, from)
    ensures Exec(s, from).Some? ==> NoMatchIn(s, from, from)
    ensures Exec(s, from).None? ==> NoMatchIn(s, from, |s| + 1)
  {
  }

  /** `exec` moves past a position where no match starts. */
  lemma ExecSkip(s: string, from: nat)
    requires from < |s| && MatchAt(s, from).None?
    ensures Exec(s, from) == Exec(s, from + 1)
  {
  }

  /** A position without a match in front of a stretch without matches extends it. */
  lemma NoMatchGrow(s: string, lo: nat, hi: nat)
    requires lo < |s| && lo < hi && MatchAt(s, lo).None? && NoMatchIn(s, lo + 1, hi)
    ensures NoMatchIn(s, lo, hi)
  {
  }

  /** The match lies within the text, its capture before its body. */
  predicate InText(s: string, m: Match) {
    m.start + |Tag| <= m.capStart < m.capEnd < m.bodyStart <= m.bodyEnd <= |s|
  }

  /** Every match `exec` returns in turn, starting from `lastIndex == from`. */
  function Scan(s: string, from: nat): (ms: seq<Match>)
    requires from <= |s|
    ensures forall k :: 0 <= k < |ms| ==> InText(s, ms[k])
    decreases |s| - from
  {
    match Exec(s, from)
    case None => []
    case Some(m) =>
      assert InText(s, m);
      var rest := Scan(s, m.bodyEnd);
      assert forall k :: 0 < k < |[m] + rest| ==> ([m] + rest)[k] == rest[k - 1];
      [m] + rest
  }

  /** Each element of a scan is a match of the pattern at its own start. */
  lemma {:induction false} ScanMatches(s: string, from: nat, k: nat)
    requires from <= |s| && k < |Scan(s, from)|
    ensures Scan(s, from)[k].start <= |s| && MatchAt(s, Scan(s, from)[k].start) == Some(Scan(s, from)[k])
    decreases k
  {
    var m := Exec(s, from).value;
    if k > 0 {
      ScanMatches(s, m.bodyEnd, k - 1);
    }
  }

  /**
   * A segmentation of `s` from `from`, stated without reference to `exec`:
   * either no position from `from` on starts a match and the list is empty, or
   * the list starts with the leftmost match at or after `from` and goes on with
   * a segmentation of what follows that match's body.
   */
  ghost predicate IsScanFrom(s: string, from: nat, ms: seq<Match>)
    decreases |ms|
  {
    if ms == [] then NoMatchIn(s, from, |s| + 1)
    else
      && from <= ms[0].start <= |s|
      && MatchAt(s, ms[0].start) == Some(ms[0])
      && NoMatchIn(s, from, ms[0].start)
      && IsScanFrom(s, ms[0].bodyEnd, ms[1..])
  }

  lemma {:induction false} ScanIsScan(s: string, from: nat)
    requires from <= |s|
    ensures IsScanFrom(s, from, Scan(s, from))
    decreases |s| - from
  {
    ExecLeftmost(s, from);
    match Exec(s, from)
    case None =>
    case Some(m) =>
      ScanIsScan(s, m.bodyEnd);
      assert Scan(s, from)[1..] == Scan(s, m.bodyEnd);
  }

  /** A match at or after `lo` in a stretch without matches lies past that stretch. */
  lemma MatchPast(s: string, lo: nat, hi: nat, q: nat)
    requires NoMatchIn(s, lo, hi) && lo <= q <= |s| && MatchAt(s, q).Some?
    ensures hi <= q
  {
  }

  /** Two leftmost matches from the same place are the same match. */
  lemma SameLeftmost(s: string, from: nat, a: Match, b: Match)
    requires from <= a.start <= |s| && MatchAt(s, a.start) == Some(a) && NoMatchIn(s, from, a.start)
    requires from <= b.start <= |s| && MatchAt(s, b.start) == Some(b) && NoMatchIn(s, from, b.start)
    ensures a == b
  {
    assert a.start == b.start by {
      MatchPast(s, from, a.start, b.start);
      MatchPast(s, from, b.start, a.start);
    }
  }

  lemma NonEmptyScan(s: string, from: nat, ms: seq<Match>)
    requires ms != [] && IsScanFrom(s, from, ms)
    ensures !NoMatchIn(s, from, |s| + 1)
  {
    assert MatchAt(s, ms[0].start).Some?;
  }

  /** A text has at most one segmentation from a given place. */
  lemma {:induction false} SegmentationUnique(s: string, from: nat, ms1: seq<Match>, ms2: seq<Match>)
    requires IsScanFrom(s, from, ms1) && IsScanFrom(s, from, ms2)
    ensures ms1 == ms2
    decreases |ms1|
  {
    if ms1 == [] || ms2 == [] {
      if ms1 != [] { NonEmptyScan(s, from, ms1); }
      if ms2 != [] { NonEmptyScan(s, from, ms2); }
    } else {
      var a, b := ms1[0], ms2[0];
      SameLeftmost(s, from, a, b);
      SegmentationUnique(s, a.bodyEnd, ms1[1..], ms2[1..]);
      SameHeadTail(ms1, ms2);
    }
  }

  lemma SameHeadTail(xs: seq<Match>, ys: seq<Match>)
    requires xs != [] && ys != [] && xs[0] == ys[0] && xs[1..] == ys[1..]
    ensures xs == ys
  {
    assert xs == [xs[0]] + xs[1..] && ys == [ys[0]] + ys[1..];
  }

  /** The segmentation `exec` produces is the only one. */
  lemma ScanUnique(s: string, from: nat, ms: seq<Match>)
    requires from <= |s| && IsScanFrom(s, from, ms)
    ensures ms == Scan(s, from)
  {
    ScanIsScan(s, from);
    SegmentationUnique(s, from, ms, Scan(s, from));
  }

  /** Text without a single literal `[FILE:` yields no match at all, so the chat's
      `includes('[FILE:')` test never withholds text that would have produced files. */
  lemma NoTagNoMatch(s: string)
    requires !Contains(s, Tag)
    ensures Scan(s, 0) == []
  {
    ExecLeftmost(s, 0);
  }
}

=== FILE: session.dfy ===
/**
 * The workbench session of App.tsx (state at App.tsx:9-25) and what each
 * handler does to it, as functions from the state before to the state after.
 * The class in app.dfy runs the handlers and is proved to follow these.
 */
module Session {
  import opened Common
  import opened Types
  import opened Parser
  import opened Bundle
  import opened Library

  const UntitledProject: string := "untitled-project"

  datatype SessionState = SessionState(
    view: View,
    skills: seq<AgentSkill>,
    activeFileIndex: nat,
    draftFiles: seq<SkillFile>,
    draftName: string,
    modalOpen: bool,
    download: DownloadConfig)

  /** The state on load, with the library read from storage passed in. */
  function Initial(saved: seq<AgentSkill>): (st: SessionState)
    ensures st.draftFiles == [] && st.skills == saved && ViewSafe(st)
  {
    SessionState(Overview, saved, 0, [], UntitledProject, false, DownloadConfig([], Zip))
  }

  /**
   * The editor pane of the workbench view reads `draftFiles[activeFileIndex]`
   * whenever the draft is not empty (App.tsx:182, 215-222); it is only defined
   * when the index is in range. The invariant asks for that in every view,
   * since any view can switch to the workbench without touching the index.
   */
  predicate ViewSafe(st: SessionState) {
    st.draftFiles == [] || st.activeFileIndex < |st.draftFiles|
  }

  /**
   * The state updates of `parseGeneratedContent` (App.tsx:51-56): nothing
   * happens when no block was found; otherwise the draft is replaced, the name
   * copied into the draft and the download dialog, the first file selected and
   * the workbench shown.
   */
  function Commit(st: SessionState, files: seq<SkillFile>, name: string): (r: SessionState)
    ensures files == [] ==> r == st
    ensures files != [] ==>
      && r.draftFiles == files && r.draftName == name && r.download.name == name
      && r.view == Workbench && r.activeFileIndex == 0 && ViewSafe(r)
    ensures r.skills == st.skills && r.modalOpen == st.modalOpen && r.download.format == st.download.format
  {
    if files == [] then st
    else st.(draftFiles := files, draftName := name, download := st.download.(name := name),
             activeFileIndex := 0, view := Workbench)
  }

  /**
   * `parseGeneratedContent` as a whole, run by a closure whose `draftName` was
   * `captured` (App.tsx:35). The chat panel (App.tsx:512) awaits the response
   * and then calls the closure of the render in which Send was pressed, so the
   * fallback name is the draft name of that render while every other field is
   * the state current on arrival.
   */
  function AfterParseFrom(st: SessionState, text: string, captured: string): (r: SessionState)
    ensures Parse(text) == [] ==> r == st
    ensures Parse(text) != [] ==>
      && r.draftFiles == Parse(text) && r.draftName == Resolve(Parse(text), captured)
      && r.view == Workbench && r.activeFileIndex == 0
      && r.download.name == r.draftName && ViewSafe(r)
    ensures r.skills == st.skills && r.modalOpen == st.modalOpen && r.download.format == st.download.format
  {
    Commit(st, Parse(text), Resolve(Parse(text), captured))
  }

  /**
   * A response with blocks but no naming block takes the name captured when the
   * request was sent, whatever the draft name has become since.
   */
  lemma CapturedNameStands(st: SessionState, text: string, captured: string)
    requires Parse(text) != []
    requires forall j :: 0 <= j < |Parse(text)| ==> NameFrom(Parse(text)[j]).None?
    ensures AfterParseFrom(st, text, captured).draftName == captured
    ensures AfterParseFrom(st, text, captured).download.name == captured
  {
    ResolveFallback(Parse(text), captured);
  }

  /** With a naming block in the response, the captured name does not matter. */
  lemma CapturedNameIgnored(st: SessionState, text: string, a: string, b: string, k: nat)
    requires k < |Parse(text)| && NameFrom(Parse(text)[k]).Some?
    ensures AfterParseFrom(st, text, a) == AfterParseFrom(st, text, b)
  {
    ResolveIgnoresFallback(Parse(text), a, b, k);
  }

  /** `parseGeneratedContent` called from the current render, as the cookbook buttons call it. */
  function AfterParse(st: SessionState, text: string): (r: SessionState)
    ensures Parse(text) == [] ==> r == st
    ensures r.draftName == Resolve(Parse(text), st.draftName)
    ensures Parse(text) != [] ==>
      && r.draftFiles == Parse(text) && r.view == Workbench && r.activeFileIndex == 0
      && r.download.name == r.draftName && ViewSafe(r)
    ensures r.skills == st.skills && r.modalOpen == st.modalOpen && r.download.format == st.download.format
  {
    AfterParseFrom(st, text, st.draftName)
  }

  /** Applying the same text twice leaves the state it left after the first time. */
  lemma ParseIdempotent(st: SessionState, text: string)
    ensures AfterParse(AfterParse(st, text), text) == AfterParse(st, text)
  {
    ResolveIdempotent(Parse(text), st.draftName);
  }

  /** A file button of the project tree (App.tsx:190-193): only existing indices are offered. */
  function AfterSelect(st: SessionState, i: nat): (r: SessionState)
    requires i < |st.draftFiles|
    ensures ViewSafe(r) && r.activeFileIndex == i
    ensures r.draftFiles == st.draftFiles && r.(activeFileIndex := st.activeFileIndex) == st
  {
    st.(activeFileIndex := i)
  }

  /**
   * "OPEN SOURCE" on library entry `k` as App.tsx:333 writes it: the draft and
   * its name are replaced and the workbench shown, but the selected index and
   * the download name are kept.
   */
  function AfterOpenAsWritten(st: SessionState, k: nat): (r: SessionState)
    requires k < |st.skills|
    ensures r.draftFiles == st.skills[k].files && r.draftName == st.skills[k].name && r.view == Workbench
    ensures r.activeFileIndex == st.activeFileIndex && r.download == st.download
    ensures r.(draftFiles := st.draftFiles, draftName := st.draftName, view := st.view) == st
  {
    st.(draftFiles := st.skills[k].files, draftName := st.skills[k].name, view := Workbench)
  }

  /** As written, opening an entry leaves the editor safe exactly when the old index fits the entry's files. */
  lemma OpenAsWrittenSafeIff(st: SessionState, k: nat)
    requires k < |st.skills|
    ensures ViewSafe(AfterOpenAsWritten(st, k)) <==>
      st.skills[k].files == [] || st.activeFileIndex < |st.skills[k].files|
  {
  }

  /**
   * A state the workbench reaches: two drafted files with the second one
   * selected, and a one-file entry in the library. Opening that entry leaves
   * index 1 on a one-file draft, and the editor pane reads past the end.
   */
  lemma OpenAsWrittenBreaksEditor()
    ensures var f := SkillFile("SKILL.md", "SKILL.md", [], "markdown");
      var entry := NewSkill([f], "one", "id", 0);
      var st := SessionState(Workbench, [entry], 1, [f, f], "two", false, DownloadConfig([], Zip));
      ViewSafe(st) && !ViewSafe(AfterOpenAsWritten(st, 0))
  {
  }

  /** "OPEN SOURCE" with the selection reset to the first file, as a fresh parse does. */
  function AfterOpen(st: SessionState, k: nat): (r: SessionState)
    requires k < |st.skills|
    ensures ViewSafe(r)
    ensures r.draftFiles == st.skills[k].files && r.draftName == st.skills[k].name && r.view == Workbench
    ensures r.activeFileIndex == 0 && r.download == st.download && r.skills == st.skills
    ensures r.(draftFiles := st.draftFiles, draftName := st.draftName, view := st.view,
               activeFileIndex := st.activeFileIndex) == st
  {
    AfterOpenAsWritten(st, k).(activeFileIndex := 0)
  }

  /**
   * `saveToLibrary` (App.tsx:93-110): the new record goes in front of the
   * library, the earlier records follow unchanged and in order, and the
   * library view is shown; the draft is kept.
   */
  function AfterSave(st: SessionState, id: string, updatedAt: int): (r: SessionState)
    ensures |r.skills| == |st.skills| + 1 && r.skills[1..] == st.skills
    ensures r.skills[0] == NewSkill(st.draftFiles, st.draftName, id, updatedAt)
    ensures r.view == Directory
    ensures r.draftFiles == st.draftFiles && r.draftName == st.draftName && r.activeFileIndex == st.activeFileIndex
    ensures ViewSafe(st) ==> ViewSafe(r)
    ensures r.(skills := st.skills, view := st.view) == st
  {
    st.(skills := [NewSkill(st.draftFiles, st.draftName, id, updatedAt)] + st.skills, view := Directory)
  }

  /** Every record ever saved stays in the library, shifted by one per later save. */
  lemma SaveKeepsRecords(st: SessionState, id: string, updatedAt: int, j: nat)
    requires j < |st.skills|
    ensures AfterSave(st, id, updatedAt).skills[j + 1] == st.skills[j]
  {
    assert AfterSave(st, id, updatedAt).skills[1..][j] == st.skills[j];
  }

  /**
   * `handleBundleDownload` (App.tsx:60-91): with an empty draft nothing
   * happens; otherwise the dialog closes. The draft is never changed.
   */
  function AfterDownload(st: SessionState): (r: SessionState)
    ensures r.draftFiles == st.draftFiles && r.draftName == st.draftName && r.skills == st.skills
    ensures r.modalOpen == (st.modalOpen && st.draftFiles == [])
    ensures r.(modalOpen := st.modalOpen) == st
  {
    if st.draftFiles == [] then st else st.(modalOpen := false)
  }

  /** What a download hands to the browser in a given state. */
  function DownloadOf(st: SessionState): (r: Option<Artifact>)
    ensures r.None? <==> st.draftFiles == []
  {
    BundleOf(st.draftFiles, st.download)
  }
}

=== FILE: text.dfy ===
/** Optional values, standing for JavaScript's `null` / `undefined` results. */
module Common {
  datatype Option<T> = None | Some(value: T) {
    function GetOr(default: T): T {
      match this
      case Some(v) => v
      case None => default
    }
  }
}

/**
 * The JavaScript string primitives the workbench relies on: the `\s` class,
 * `trim`, `startsWith`/`endsWith`/`includes`, the line terminators that `.`
 * refuses to match, and the `key\s*(.*)` capture used for `name:` and
 * `description:`.
 */
module Text {
  import opened Common

  /** JavaScript line terminators: what `.` in a regular expression never matches. */
  predicate IsLineTerminator(c: char) {
    c == '\n' || c == '\r' || c == '\U{2028}' || c == '\U{2029}'
  }

  /** JavaScript `\s`, which is also the set `String.prototype.trim` removes. */
  predicate IsSpace(c: char) {
    || c == '\t' || c == '\U{000B}' || c == '\U{000C}' || c == ' '
    || c == '\U{00A0}' || c == '\U{FEFF}' || c == '\U{1680}'
    || ('\U{2000}' <= c <= '\U{200A}')
    || c == '\U{202F}' || c == '\U{205F}' || c == '\U{3000}'
    || IsLineTerminator(c)
  }

  predicate AllSpace(s: string) {
    forall i :: 0 <= i < |s| ==> IsSpace(s[i])
  }

  predicate StartsWith(s: string, prefix: string) {
    |prefix| <= |s| && s[..|prefix|] == prefix
  }

  predicate EndsWith(s: string, suffix: string) {
    |suffix| <= |s| && s[|s| - |suffix|..] == suffix
  }

  predicate OccursAt(s: string, pat: string, i: nat) {
    i + |pat| <= |s| && s[i..i + |pat|] == pat
  }

  /** `s.includes(pat)` */
  predicate Contains(s: string, pat: string) {
    exists i :: 0 <= i <= |s| && OccursAt(s, pat, i)
  }

  /** The index of the first non-whitespace character at or after `i` (the end of a greedy `\s*`). */
  function SkipSpaces(s: string, i: nat): (j: nat)
    requires i <= |s|
    ensures i <= j <= |s|
    ensures forall k :: i <= k < j ==> IsSpace(s[k])
    ensures j == |s| || !IsSpace(s[j])
    decreases |s| - i
  {
    if i == |s| || !IsSpace(s[i]) then i else SkipSpaces(s, i + 1)
  }

  /** The index of the first line terminator at or after `i`, or `|s|` (the end of a greedy `.*`). */
  function LineEnd(s: string, i: nat): (j: nat)
    requires i <= |s|
    ensures i <= j <= |s|
    ensures forall k :: i <= k < j ==> !IsLineTerminator(s[k])
    ensures j == |s| || IsLineTerminator(s[j])
    decreases |s| - i
  {
    if i == |s| || IsLineTerminator(s[i]) then i else LineEnd(s, i + 1)
  }

  function TrimStart(s: string): (r: string)
    ensures EndsWith(s, r)
    ensures AllSpace(s[..|s| - |r|])
    ensures r == [] || !IsSpace(r[0])
  {
    s[SkipSpaces(s, 0)..]
  }

  function TrimEnd(s: string): (r: string)
    ensures StartsWith(s, r)
    ensures AllSpace(s[|r|..])
    ensures r == [] || !IsSpace(r[|r| - 1])
  {
    if s == [] || !IsSpace(s[|s| - 1]) then s else TrimEnd(s[..|s| - 1])
  }

  /** `s.trim()`: the longest infix of `s` that neither starts nor ends with whitespace,
      what is cut on either side being whitespace only. */
  function Trim(s: string): (r: string)
    ensures r == [] || (!IsSpace(r[0]) && !IsSpace(r[|r| - 1]))
    ensures var i := SkipSpaces(s, 0); i + |r| <= |s| && r == s[i..i + |r|] && AllSpace(s[i + |r|..])
  {
    var t := TrimStart(s);
    var r := TrimEnd(t);
    var i := |s| - |t|;
    assert s[i..i + |r|] == r;
    assert s[i + |r|..] == t[|r|..];
    r
  }

  lemma {:induction false} TrimOfTrimmed(s: string)
    requires s == [] || (!IsSpace(s[0]) && !IsSpace(s[|s| - 1]))
    ensures Trim(s) == s
  {
    assert SkipSpaces(s, 0) == 0;
    assert s[0..] == s;
  }

  /** The first index at or after `from` where `pat` occurs. */
  function FindFrom(s: string, pat: string, from: nat): (r: Option<nat>)
    requires from <= |s|
    ensures r.Some? ==> from <= r.value && OccursAt(s, pat, r.value)
    ensures r.Some? ==> forall j: nat :: from <= j < r.value ==> !OccursAt(s, pat, j)
    ensures r.None? ==> forall j: nat :: from <= j ==> !OccursAt(s, pat, j)
    decreases |s| - from
  {
    if OccursAt(s, pat, from) then Some(from)
    else if from + |pat| >= |s| then None
    else FindFrom(s, pat, from + 1)
  }

  /**
   * `v` is what `/key\s*(.*)/` captures with the leftmost `key` at `at` and the
   * whitespace run after it ending at `a`: the greedy `\s*` takes every
   * whitespace character (newlines included), and `(.*)` the rest of that line.
   */
  ghost predicate CapturedAt(s: string, key: string, v: string, at: nat, a: nat) {
    && OccursAt(s, key, at)
    && (forall j: nat :: j < at ==> !OccursAt(s, key, j))
    && at + |key| <= a <= |s|
    && (forall k :: at + |key| <= k < a ==> IsSpace(s[k]))
    && (a == |s| || !IsSpace(s[a]))
    && a + |v| <= |s| && v == s[a..a + |v|]
    && (forall k :: 0 <= k < |v| ==> !IsLineTerminator(v[k]))
    && (a + |v| == |s| || IsLineTerminator(s[a + |v|]))
  }

  /** The first capture of `/key\s*(.*)/` on `s`, or `None` when `key` does not occur. */
  function KeyCapture(s: string, key: string): (r: Option<string>)
    ensures r.None? <==> !Contains(s, key)
    ensures r.Some? ==> exists at: nat, a: nat :: CapturedAt(s, key, r.value, at, a)
    ensures r.Some? && r.value != [] ==> !IsSpace(r.value[0])
  {
    match FindFrom(s, key, 0)
    case None => None
    case Some(at) =>
      var a := SkipSpaces(s, at + |key|);
      var v := s[a..LineEnd(s, a)];
      assert CapturedAt(s, key, v, at, a);
      Some(v)
  }

  /** The capture is determined by the text: the match position, the run and the line end are forced. */
  lemma CapturedAtUnique(s: string, key: string, v: string, at: nat, a: nat, w: string, at': nat, a': nat)
    requires CapturedAt(s, key, v, at, a) && CapturedAt(s, key, w, at', a')
    ensures v == w
  {
  }

  /** Whatever satisfies the description of the capture is what `KeyCapture` returns. */
  lemma KeyCaptureIs(s: string, key: string, v: string, at: nat, a: nat)
    requires CapturedAt(s, key, v, at, a)
    ensures KeyCapture(s, key) == Some(v)
  {
    assert Contains(s, key);
    var w := KeyCapture(s, key).value;
    var at': nat, a': nat :| CapturedAt(s, key, w, at', a');
    CapturedAtUnique(s, key, v, at, a, w, at', a');
  }

  /** The lower case of a character as far as the test for `skill.md` can tell:
      ASCII capitals and the Kelvin sign, which lower-cases to `k`. */
  function LowerChar(c: char): char {
    if 'A' <= c <= 'Z' then (c as int + 32) as char
    else if c == '\U{212A}' then 'k'
    else c
  }

  function Lower(s: string): (r: string)
    ensures |r| == |s|
    ensures forall i :: 0 <= i < |s| ==> r[i] == LowerChar(s[i])
  {
    seq(|s|, i requires 0 <= i < |s| => LowerChar(s[i]))
  }
}

=== FILE: types.dfy ===
/** The records the workbench passes around (types.ts). */
module Types {
  import opened Common

  /** One generated file: `name` is derived from `path`, `language` is a display tag. */
  datatype SkillFile = SkillFile(name: string, path: string, content: string, language: string)

  datatype SkillMetadata = SkillMetadata(
    shortDescription: Option<string>,
    version: string,
    triggers: seq<string>,
    capabilities: seq<string>)

  /** A library entry. `updatedAt` is a millisecond timestamp. */
  datatype AgentSkill = AgentSkill(
    id: string,
    name: string,
    description: string,
    metadata: SkillMetadata,
    instructions: string,
    files: seq<SkillFile>,
    updatedAt: int)

  datatype View = Overview | Workbench | Directory | Mcp | Cookbook | Settings
}
